=== FILE: README.md ===
# ARC Confidence Dashboard: a model of `script.js`

The ARC Confidence Dashboard is a single web page. Its script fills four
metric cards:

- the USDC market cap;
- the current block height of the ARC testnet;
- the total number of transactions;
- the finality time.

It also fills two lists: "big" USDC transfers of at least 1000 dollars, and
the ten most recent transactions. It first shows static fallback data
(`initializeMetrics`). Every ten seconds it runs a refresh cycle
(`loadMetrics`) that calls five fetch functions in order. Each fetch function
replaces its part of the page with live data, or falls back. Separately, a
search box opens the explorer's address page for the trimmed query.

This project models that script in Dafny.

- **The page** is `Page.Dashboard`, a class whose six fields are the text
  and HTML the script writes into the page. Its methods follow the script's
  functions statement by statement. Each method's `ensures` ties the new
  `View()` to the old one and to a pure specification function of what the
  endpoint returned.
- **JavaScript semantics** the script depends on are modelled exactly on
  reals and sequences in `Js` and `Format`:
  - truthiness, `||` and `===`;
  - property reads that throw on `undefined`/`null`;
  - `Number(...)`, `parseInt(..., 16)` and `trim`;
  - `substring` and `slice`;
  - `toFixed`;
  - en-US `toLocaleString` with its fraction-digit options.
- **Responses.** What a `fetch` gave is a `Settings.Response`: no response
  at all, or a response with its `ok` flag and its JSON body (or none).
- **Exceptions** are values, not preconditions. A TypeError is a
  `Completion`. The display methods return `thrown`. `LoadMetrics` stops the
  cycle when the big-transfer display throws, as the script's outer `catch`
  does.
- **Lists.** A list's HTML is built by `Markup.AppendRows`, one `+=` per
  record, ending at the first row that throws. It is specified by
  `Markup.Concat`.

Behaviours of the script worth noting:

- A TypeError thrown while the big-transfer list is displayed escapes
  `fetchBigTransfers`. It ends the cycle, so the recent transactions are not
  refreshed in that cycle (`Page.BigFailureSkipsRecent`).
- When `map` throws on a null record, the raw `items` stay in `transactions`
  and are handed to the display, with no fallback and no warning
  (`Stream.RawItemsShownWhenMapThrows`). When the null record is among the
  first ten, the display throws on `tx.hash`, so the list keeps its old HTML
  (`Stream.NullRecordNotDisplayed`, `Page.NullRecordKeepsRecent`).
- A market cap below a billion is written with up to three fraction digits
  (`toLocaleString('en-US')`), not as an integer.

## Model

| member | source | states |
|---|---|---|
| Page.Dashboard.constructor | script.js:48-60 | `initializeMetrics` on a blank page leaves exactly the screen `Initial` (the fallback figures, the finality time and both fallback lists) |
| Page.InitialShows | script.js:48-60 | the first screen shows "$55.00B", "14,661,297", "145,890" and "1.50s"; neither fallback list throws; the recent list starts with the fallback warning |
| Page.Dashboard.DisplayFallbackFigures | script.js:49-52 | the three cards get `(55e9 / 1e9).toFixed(2) + 'B'` after `$` and the en-US format of the two fallback counts; nothing else changes |
| Page.Dashboard.DisplayFallbacks | script.js:53-59 | the finality card and both lists show the fallback data; the recent list is only replaced when its display does not throw; the cards are untouched |
| Page.Dashboard.DisplayFinalityTime | script.js:259-261 | only the finality card changes, to the time with two decimals and `s` |
| Page.Dashboard.DisplayBigTransfers | script.js:171-187 | the list holds `<ul>`, the rows of the first five records and `</ul>`; it throws exactly when a shown row throws, and then holds the rows before it; nothing else changes |
| Page.Dashboard.DisplayRecentTransactions | script.js:220-256 | it throws exactly when the list HTML cannot be built, and then nothing changes; otherwise only the recent list changes, to that HTML |
| Page.Dashboard.FetchUSDCMarketCap | script.js:84-102 | only the market-cap card can change; it changes to `MarketCapText` of the response, and keeps its text when the fetch ends in its `catch` |
| Page.Dashboard.FetchCurrentBlockHeight | script.js:104-119 | only the block card can change; it changes to `BlockHeightText` of the response, and keeps its text when there is no JSON body or it is null |
| Page.Dashboard.FetchTotalTransactions | script.js:121-136 | the transaction card is always rewritten with the en-US format of `TotalTransactions`; nothing else changes |
| Page.Dashboard.FetchBigTransfers | script.js:142-169 | the big list shows the live big transfers or, when there are none, the fallback; it throws exactly when that list throws, and never when it falls back |
| Page.Dashboard.FetchRecentTransactions | script.js:191-218 | the recent list shows the chosen list (live or fallback) unless its display throws; it never throws when it falls back |
| Page.Dashboard.LoadMetrics | script.js:67-78 | one cycle leaves the screen `Refreshed` of the old screen and the five responses |
| Page.Refreshed | script.js:67-78 | a cycle never touches the finality card; a card whose fetch ends in its `catch` keeps its text; a throwing big list leaves the recent list as it was |
| Page.NullRecordKeepsRecent | script.js:201-255 | a null record among the first ten live transactions leaves the recent list exactly as it was after the cycle |
| Page.BigFailureSkipsRecent | script.js:67-78 | when the big list throws, the recent list keeps its HTML, whatever the recent endpoint returned |
| Page.FallbackReachesRecent | script.js:163-168 | when the big list falls back, the cycle reaches the recent list, which then shows its HTML whenever that does not throw |
| Page.RefreshedTwice | script.js:67-78 | a second cycle with the same answers leaves the screen as the first one did |
| Page.OfflineCycleKeepsInitial | script.js:67-78 | a cycle in which no endpoint answers leaves the first screen exactly as it is |
| Search.PerformSearch | script.js:264-274 | an alert with the fixed message exactly when the query is only white space; otherwise the explorer's `/address/` URL with a non-empty query, in `_blank` |
| Search.SearchUrl | script.js:265-273 | the query in the URL is the input without its leading and trailing white space: an infix of the input with no white space at its ends |
| Search.SearchAddress | script.js:273 | an input without white space at its ends is appended as it is, unencoded |
| Metrics.CapText | script.js:93-97 | no text exactly when the cap is undefined or null (`toLocaleString` throws); any text starts with `$` |
| Metrics.MarketCapText | script.js:84-102 | the card only changes for an `ok` response with a JSON body; an `ok` body that is null or whose `usd-coin` is undefined or null keeps the card; otherwise the text is `CapText` of its `usd_market_cap` |
| Metrics.CapUnit | script.js:93-95 | a cap of at least 1e12 ends in `T`; one in [1e9, 1e12) ends in `B`; a smaller one is `$` and its en-US format |
| Metrics.CapInBillions | script.js:94 | a cap in [1e9, 1e12) is shown as `$`, digits, a point, two digits and `B`, which read back as the cap in billions rounded half up to two decimals |
| Metrics.FallbackCapText | script.js:49-50 | the fallback cap is shown as "$55.00B" |
| Metrics.BlockHeightText | script.js:104-119 | the card changes exactly when the response has a JSON body that is not null |
| Metrics.BlockHeightOfHex | script.js:113-114 | a `result` of `0x` and the hex digits of n shows n grouped by thousands |
| Metrics.BlockHeightWithoutResult | script.js:113-114 | a body without `result` turns the card into "NaN" |
| Metrics.FallbackBlockText | script.js:51 | the fallback height is shown as "14,661,297" |
| Metrics.CountChoice | script.js:128 | a truthy `transactions_count` is chosen; otherwise a truthy `total_transactions`; otherwise 0 |
| Metrics.TotalTransactions | script.js:121-136 | the number shown is never 0 and never NaN; it is the chosen count when there is a non-null JSON body whose chosen count is a non-zero number (`UsableCount`), and 145890 otherwise |
| Metrics.CountFromNumber | script.js:128-135 | a non-zero numeric `transactions_count` is shown as it is |
| Metrics.CountFromTotal | script.js:128-135 | a falsy `transactions_count` gives way to a non-zero numeric `total_transactions` |
| Metrics.StringCountFallsBack | script.js:128-133 | a count sent as a non-empty string is replaced by the fallback count |
| Metrics.FallbackCountText | script.js:52 | the fallback count is shown as "145,890" |
| Metrics.SecondsText | script.js:260 | the finality text ends in `s` after at least one character |
| Metrics.FinalityShown | script.js:53 | the finality time 1.5 is shown as "1.50s" |
| Transfers.IsBigTransfer | script.js:151-157 | a record that passes the test has a truthy token whose `symbol` is "USDC", and a `total` that converts to a finite number |
| Transfers.BigTransferThreshold | script.js:151-157 | a record is kept exactly when its token is truthy, the symbol is `=== "USDC"`, and `Number(total)` is at least 1e9 (1000 USDC of 10^6 units) |
| Transfers.DecimalTotal | script.js:152-154 | for a USDC record with a decimal `total` n, it is kept exactly when n ≥ 10^9 |
| Transfers.TokenlessDropped | script.js:152 | a record without `token` is dropped |
| Transfers.ObjectTotalDropped | script.js:153 | a record whose `total` is an object (NaN) is dropped |
| Transfers.BigTransferExamples | script.js:151-157 | 2000 USDC is kept and 500 USDC is dropped |
| Transfers.FilterBigTransfers | script.js:151-157 | `filter` throws exactly when a record is undefined or null; otherwise it keeps exactly the records that pass the test |
| Transfers.FilterOne | script.js:151-157 | a single non-null record is kept, once, exactly when it passes the test; with `FilterAppend` this fixes the filter's result on every list |
| Transfers.FilterAppend | script.js:151-157 | filtering a concatenation is the concatenation of the filtered parts, and throws when either part throws |
| Transfers.LiveBigTransfers | script.js:147-161 | there is a live list exactly when the JSON body is not null, its `items` is an array and the filter does not throw; that list is the filter's result, so every live transfer is a non-null record that passed the test |
| Transfers.SelectBigTransfers | script.js:163-166 | the fallback list and flag exactly when there is no live transfer; otherwise the live list, unchanged and non-empty |
| Transfers.BigValue | script.js:175 | a truthy `value` is shown as it is; otherwise `Number(total) / 10^6`; never undefined or null |
| Transfers.BigTime | script.js:176 | a truthy `time` is shown as it is; otherwise the time of day of a truthy `timestamp`; otherwise "Just now" |
| Transfers.BigAddress | script.js:177 | `tx.address \|\| tx.from.hash \|\| "0x000...ARC"` throws exactly when the address is falsy and `from` is undefined or null |
| Transfers.AddressLabel | script.js:182 | at most the first eight characters of the address, then `...` |
| Transfers.BigItem | script.js:175-184 | a row throws exactly when the record is nullish, its address throws, or the address is not a string |
| Transfers.BigTransfersHtml | script.js:171-187 | the list throws exactly when one of the first five rows throws |
| Transfers.FirstFiveBigTransfers | script.js:174 | records after the fifth never change the list |
| Transfers.AddressedRowRenders | script.js:175-184 | a record with a non-empty string address always renders |
| Transfers.FallbackBigTransfersRender | script.js:27-31 | the fallback transfers render without throwing |
| Transfers.FallbackAddressLabel | script.js:182 | the fallback address "0x1A2B...A9C1" is shown as "0x1A2B....." |
| Transfers.WholeDollars | script.js:181 | with no fraction digits an integral value is shown as its grouped integer |
| Stream.MappedStatus | script.js:205 | "SUCCESS" exactly when the raw status is `=== "ok"`, otherwise "FAILURE" |
| Stream.MapTransaction | script.js:201-206 | throws exactly on an undefined or null record; otherwise an object with exactly hash, value, time and status, where the hash is copied, the status is mapped, the value is `Number(tx.value)` when that is a non-zero finite number and 0 otherwise, and the time is the `clock` text of `tx.timestamp` |
| Stream.MapTransactions | script.js:201-206 | `map` throws exactly when a record is undefined or null; otherwise one reshaped record per record, in order |
| Stream.LengthBelowOne | script.js:212 | an array or a string is below one exactly when it is empty; a value without `length` never is |
| Stream.LiveRecentTransactions | script.js:192-210 | `[]` when there is no JSON body or it is null; otherwise `data.items \|\| []` when that is not an array or `map` throws on it, and the reshaped records when `map` succeeds; never undefined or null |
| Stream.SelectRecentTransactions | script.js:212-215 | the fallback list and flag exactly when `transactions.length < 1`; otherwise the live value |
| Stream.LiveRecordsShown | script.js:198-206 | non-null live records are shown reshaped, in order, without the warning |
| Stream.RawItemsShownWhenMapThrows | script.js:201-209 | when a record is null, the raw `items` are handed to the display, with no fallback and no warning |
| Stream.NullRecordNotDisplayed | script.js:232-233 | when the null record is among the first ten, the display of those raw items throws |
| Stream.NoBodyFallsBack | script.js:192-215 | a reply with no JSON body, or a null one, gives the fallback list with the warning |
| Stream.NoItemsFallsBack | script.js:198 | a missing, empty or falsy `items` gives the fallback list |
| Stream.UnreachableFallsBack | script.js:208-215 | no response gives the fallback list |
| Stream.StatusClass | script.js:236-237 | `success` exactly for "SUCCESS" or 1; `pending` exactly for "PENDING" otherwise; `failure` for anything else |
| Stream.StatusIcon | script.js:240-242 | the check icon exactly for `success`; the clock icon exactly for `pending`; otherwise the cross |
| Stream.IconIdentifiesClass | script.js:236-242 | two rows have the same icon exactly when they have the same status class |
| Stream.MappedNeverPending | script.js:205-237 | a reshaped live record is never `pending`; it is `success` exactly when its raw status was "ok" |
| Stream.ShortHash | script.js:247 | the first (at most) 10 characters of the hash, `...`, then the last (at most) 4 |
| Stream.RowHash | script.js:233 | a truthy `hash` is used as it is; otherwise "0xARC-TX-HASH" |
| Stream.TxLink | script.js:234 | the link is the transaction base URL followed by exactly the hash |
| Stream.RecentItem | script.js:232-251 | a row throws exactly when the record is nullish or its hash (after `\|\| "0xARC-TX-HASH"`) is not a string; a row that renders opens `TxLink` of its hash |
| Stream.MissingHash | script.js:233-247 | a record without a hash is shown as "0xARC-TX-H...HASH" |
| Stream.RecentTransactionsHtml | script.js:220-256 | the list throws exactly when `transactions` is not an array or one of its first ten rows throws |
| Stream.WarningIffFallback | script.js:226-230 | the list starts with the fallback warning exactly when it shows fallback data |
| Stream.FirstTenTransactions | script.js:232 | records after the tenth never change the list |
| Stream.HashedRowRenders | script.js:233-251 | a record with a non-empty string hash always renders |
| Stream.FallbackRecentRender | script.js:32-38 | the fallback transactions render without throwing |
| Markup.Concat | script.js:174-185 | the rows' HTML fails exactly when some row throws |
| Markup.ConcatAppend | script.js:174-185 | rows are written in order, and once a row has thrown later rows leave no trace |
| Markup.AppendRows | script.js:232-252 | the `forEach` loop appends exactly the rows before the first throwing row, and reports whether one threw |
| Markup.ShownFails | script.js:174 | the first `limit` rows fail exactly when one of the first `limit` records does not render |
| Markup.Rows | script.js:174 | one row per record, in order, each the renderer's result for that record |
| Markup.Shown | script.js:232 | `slice(0, limit)` keeps the first min(limit, length) records, unchanged |
| Settings.Body | script.js:112 | a body exists exactly when there was a response and its JSON parsed |
| Js.Get | script.js:90 | reading a property throws exactly when the value is undefined or null |
| Js.Trim | script.js:265 | the result has no white space at either end, and is empty exactly when the input is all white space |
| Js.TrimIsInfix | script.js:265 | the trimmed string is the infix after the leading white space, with only white space around it |
| Js.TrimKeeps | script.js:265 | a string without white space at its ends is unchanged by `trim` |
| Js.ParseIntTrimmed | script.js:113 | NaN exactly when, after one sign and (for base 16) a `0x`, no digit of the base follows; otherwise an integer, not positive after `-` and not negative otherwise |
| Js.ParseInt | script.js:113 | `parseInt` gives NaN or an integer |
| Js.HexRoundTrip | script.js:113 | `parseInt` of leading white space, `0x`, the hex digits of n and a non-hex rest, in base 16, gives n |
| Js.ParseIntWithoutDigits | script.js:113 | a string starting with no digit, sign or white space parses to NaN |
| Js.ParseIntUndefined | script.js:113 | `parseInt(undefined, 16)` is NaN |
| Js.ToNumber | script.js:153 | a number converts to itself, undefined to NaN, null, false and an all-white-space string to 0 |
| Js.StringToNumber | script.js:203 | an empty or all-white-space string converts to 0 |
| Js.DecimalStringToNumber | script.js:153 | `Number` of a decimal digit string is its value |
| Js.NotNumeric | script.js:153 | `Number` of a trimmed string that does not start like a number is NaN |
| Js.ObjectToNumber | script.js:153 | `Number` of an object is NaN |
| Js.Divide | script.js:153 | the quotient is NaN exactly when the dividend is, and times the divisor gives the dividend |
| Js.SubstringPrefix | script.js:182 | `substring(0, n)` is the first min(n, length) characters |
| Js.SliceSuffix | script.js:247 | `slice(-n)` is the last min(n, length) characters |
| Format.RoundHalfUp | script.js:93-94 | the natural number nearest to the value, the larger one on a tie |
| Format.ToFixed | script.js:93-94 | NaN is "NaN"; a value whose magnitude is below 10^21 is written as an optional `-`, then digits, a point and f digits that read back as the magnitude times 10^f rounded half up |
| Format.FixedReadsBack | script.js:93-94 | below 10^21, `toFixed(f)` is digits, a point and f digits, which read back as the value times 10^f rounded |
| Format.FixedOfWhole | script.js:49 | `toFixed(f)` of a whole number is its digits, a point and f zeros |
| Format.TrimZeros | script.js:95 | trailing fraction zeros are dropped, never below the required minimum (or the whole string when shorter), and nothing else is |
| Format.GroupDigitsRoundTrip | script.js:114 | removing the commas from grouped digits gives the digits back |
| Format.GroupDigitsCommas | script.js:114 | grouped digits never start with a comma: one to three digits, then groups of a comma and three digits |
| Format.GroupedRoundTrip | script.js:51-52 | the grouped form of n, without commas, is digits worth n |
| Format.GroupedSign | script.js:114 | a grouped integer starts with `-` exactly when it is negative |
| Format.LocaleFormat | script.js:114 | the text is "NaN" exactly for NaN, and starts with `-` exactly for a negative number |
| Format.ToLocaleText | script.js:248 | a number is written by `LocaleFormat` with the given fraction digits, and a string is written as it is |
| Format.LocaleOfInteger | script.js:51-52 | `toLocaleString('en-US')` of an integer is its grouped form |
| Format.LocaleFixedFraction | script.js:248 | with two fraction digits required and allowed, the text ends in a point and exactly two digits |

## Left out

- The DOM, `fetch` and the endpoints' URLs and request bodies. A response
  is a parameter, and the page is the six texts it shows.
- `setInterval` and the ten-second period. `Page.Dashboard.LoadMetrics` is
  one cycle. Cycles that overlap while requests are pending, and so
  interleave their writes, are not modelled.
- `Date` and `toLocaleTimeString`: the time of day of a timestamp is the
  `clock` parameter.
- Floating point. Numbers are NaN or an exact real. Infinity, -0, double
  rounding, `Number::toString`'s shortest round-trip digits and exponent
  forms are not modelled.
- Strings are sequences of code points, not UTF-16 code units. This
  matters only for `substring`/`slice` of non-BMP characters.
- Inherited properties. Property reads see only an object's own
  properties, plus `length` of arrays and strings. A value whose JSON has a
  custom `toString`, or a property named like a prototype method, is not
  modelled.
- The browser re-serialising `innerHTML` after each `+=`. The list HTML is
  the concatenated string.
- `console.warn` and `console.error` calls.
- `alert` and `window.open`: `Search.PerformSearch` returns which of the two
  happens and its argument.
- Transfers.BigTransfersHtml: its `ensures` states only when the list
  throws. The `<ul>`…`</ul>` content is given by its own body, and the loop
  of `Page.Dashboard.DisplayBigTransfers` (through `Markup.AppendRows`) is
  proved to produce exactly that content.
- Page.Dashboard.constructor: the three figures are written before the
  finality card and the lists, as in the script. The finality card and the
  lists are written by `DisplayFallbacks`, a separate method. The result
  does not depend on this split, because the fields are distinct.
- `displayBigTransfers` writes `container.innerHTML` row by row.
  `Markup.AppendRows` returns the HTML up to the first row that throws, and
  the method then stores it. The final content is the same, but the
  intermediate states of the container are not modelled.

=== FILE: format.dfy ===
/** The number formats the dashboard displays: Number.prototype.toFixed
    (section 21.1.3.3 of ECMA-262) and the en-US number format behind
    `toLocaleString('en-US', ...)` (ECMA-402): the magnitude rounded half
    away from zero to the allowed fraction digits, trailing fraction zeros
    dropped down to the required minimum, and the integer digits grouped in
    threes by commas. */
module Format {
  import opened Numerals
  import opened Js

  /** The natural number nearest to `y`, the larger one on a tie. */
  function RoundHalfUp(y: real): (n: nat)
    requires y >= 0.0
    ensures n as real - 0.5 <= y < n as real + 0.5
  {
    (y + 0.5).Floor
  }

  /** x·10^f, for a magnitude `x`. */
  function ScaleUp(x: real, f: nat): (y: real)
    requires x >= 0.0
    ensures y >= 0.0
  {
    assert x * Pow10(f) as real >= 0.0;
    x * Pow10(f) as real
  }

  /** The last `width` decimal digits of `v`, with leading zeros. */
  function FracDigits(v: nat, width: nat): (s: string)
    ensures |s| == width && AllDigits(s, 10)
  {
    if width == 0 then ""
    else
      var front := FracDigits(v / 10, width - 1);
      var s := front + [DigitChar(v % 10)];
      assert forall i :: 0 <= i < |front| ==> s[i] == front[i];
      s
  }

  /** The digits FracDigits writes are worth `v` modulo 10^width. */
  lemma {:induction false} FracDigitsValue(v: nat, width: nat)
    ensures ValueOf(FracDigits(v, width), 10) == v % Pow10(width)
  {
    if width > 0 {
      var front := FracDigits(v / 10, width - 1);
      FracDigitsValue(v / 10, width - 1);
      AppendDigit(front, DigitChar(v % 10), 10);
      ShiftedRemainder(v, Pow10(width - 1));
    }
  }

  /** Splitting off the last decimal digit commutes with a remainder by a
      power of ten. */
  lemma ShiftedRemainder(v: nat, p: nat)
    requires p >= 1
    ensures (v / 10 % p) * 10 + v % 10 == v % (10 * p)
  {
    var a, b := v / 10, v % 10;
    var c, d := a / p, a % p;
    assert v == 10 * a + b;
    assert a == p * c + d;
    assert v == (10 * p) * c + (d * 10 + b);
    DivisionUnique(v, 10 * p, c, d * 10 + b);
  }

  /** Quotient and remainder are the only ones with a remainder in range. */
  lemma DivisionUnique(v: int, m: int, q: int, r: int)
    requires m > 0 && v == m * q + r && 0 <= r < m
    ensures v / m == q && v % m == r
  {
    var q', r' := v / m, v % m;
    assert m * (q - q') == r' - r;
    if q > q' {
      MultipleAtLeast(m, q - q');
    } else if q < q' {
      MultipleAtLeast(m, q' - q);
    }
  }

  /** Dividing a natural number by a positive one gives a natural quotient
      and a remainder below the divisor. */
  lemma QuotientNat(n: nat, p: nat)
    requires p >= 1
    ensures n / p >= 0 && 0 <= n % p < p
  {
  }

  /** A positive number times a factor of at least one is at least the
      number. */
  lemma MultipleAtLeast(m: int, k: int)
    requires m > 0 && k >= 1
    ensures m * k >= m
  {
  }

  /** `s` without trailing zeros, though never shorter than `keep`. */
  function TrimZeros(s: string, keep: nat): (t: string)
    ensures |t| <= |s| && forall i :: 0 <= i < |t| ==> t[i] == s[i]
    ensures forall i :: |t| <= i < |s| ==> s[i] == '0'
    ensures |s| <= keep ==> t == s
    ensures |t| > keep ==> t[|t| - 1] != '0'
    ensures |t| >= (if |s| < keep then |s| else keep)
    decreases |s|
  {
    if |s| > keep && s[|s| - 1] == '0' then TrimZeros(s[..|s| - 1], keep) else s
  }

  /** en-US digit grouping: a comma between each group of three digits,
      counted from the right. */
  function GroupDigits(d: string): (g: string)
    ensures |g| == |d| + (if d == [] then 0 else (|d| - 1) / 3)
    decreases |d|
  {
    if |d| <= 3 then d else GroupDigits(d[..|d| - 3]) + "," + d[|d| - 3..]
  }

  /** The characters of `g` other than commas. */
  function RemoveCommas(g: string): string {
    if g == [] then [] else RemoveCommas(g[..|g| - 1]) + (if g[|g| - 1] == ',' then [] else [g[|g| - 1]])
  }

  lemma {:induction false} RemoveCommasAppend(a: string, b: string)
    ensures RemoveCommas(a + b) == RemoveCommas(a) + RemoveCommas(b)
    decreases |b|
  {
    if b == [] {
      assert a + b == a;
    } else {
      var b' := b[..|b| - 1];
      assert (a + b)[..|a + b| - 1] == a + b';
      RemoveCommasAppend(a, b');
    }
  }

  lemma RemoveCommasOfDigits(d: string)
    requires AllDigits(d, 10)
    ensures RemoveCommas(d) == d
    decreases |d|
  {
    if d != [] {
      RemoveCommasOfDigits(d[..|d| - 1]);
      assert d[..|d| - 1] + [d[|d| - 1]] == d;
    }
  }

  /** Dropping the commas of a grouped number gives back its digits. */
  lemma {:induction false} GroupDigitsRoundTrip(d: string)
    requires AllDigits(d, 10)
    ensures RemoveCommas(GroupDigits(d)) == d
    decreases |d|
  {
    if |d| <= 3 {
      RemoveCommasOfDigits(d);
    } else {
      var front, back := d[..|d| - 3], d[|d| - 3..];
      var gf := GroupDigits(front);
      GroupStep(d);
      GroupDigitsRoundTrip(front);
      CommaThenDigits(gf, back);
      assert front + back == d;
    }
  }

  /** A comma and digits after `g` add just those digits once the commas
      are dropped. */
  lemma CommaThenDigits(g: string, back: string)
    requires AllDigits(back, 10)
    ensures RemoveCommas(g + "," + back) == RemoveCommas(g) + back
  {
    assert RemoveCommas(g + ",") == RemoveCommas(g) by {
      assert (g + ",")[..|g|] == g;
    }
    assert RemoveCommas(back) == back by {
      RemoveCommasOfDigits(back);
    }
    RemoveCommasAppend(g + ",", back);
  }

  /** The shape of an en-US grouped digit string: counted from its right
      end, every fourth character is a comma and every other one a digit,
      and the string does not start with a comma, so every group after the
      first has three digits and the first has one to three. */
  predicate WellGrouped(g: string) {
    && (g == [] || |g| % 4 != 0)
    && forall i :: 0 <= i < |g| ==> if (|g| - i) % 4 == 0 then g[i] == ',' else IsDigit(g[i], 10)
  }

  lemma {:induction false} GroupDigitsCommas(d: string)
    requires AllDigits(d, 10)
    ensures WellGrouped(GroupDigits(d))
    decreases |d|
  {
    if |d| <= 3 {
      assert forall i :: 0 <= i < |d| ==> IsDigit(d[i], 10) && (|d| - i) % 4 != 0;
    } else {
      var front, back := d[..|d| - 3], d[|d| - 3..];
      assert GroupDigits(d) == GroupDigits(front) + "," + back by {
        GroupStep(d);
      }
      assert AllDigits(front, 10) && AllDigits(back, 10);
      GroupDigitsCommas(front);
      WellGroupedStep(GroupDigits(front), back);
    }
  }

  /** A comma and three more digits keep a digit string well grouped. */
  lemma WellGroupedStep(g: string, back: string)
    requires g != [] && WellGrouped(g) && |back| == 3 && AllDigits(back, 10)
    ensures WellGrouped(g + "," + back)
  {
    var h := g + "," + back;
    forall i | 0 <= i < |h|
      ensures if (|h| - i) % 4 == 0 then h[i] == ',' else IsDigit(h[i], 10)
    {
      if i < |g| {
        assert h[i] == g[i];
        assert (|h| - i) % 4 == (|g| - i) % 4;
      } else if i > |g| {
        assert h[i] == back[i - |g| - 1];
      }
    }
  }

  /** An integer in en-US style: a minus sign when negative, then the
      grouped digits of its magnitude. */
  function Grouped(i: int): string {
    (if i < 0 then "-" else "") + GroupDigits(Digits(if i < 0 then -i else i, 10))
  }

  /** Reading a grouped natural number back: once the commas are dropped,
      its digits are worth the number. */
  lemma GroupedRoundTrip(m: nat)
    ensures var d := RemoveCommas(Grouped(m));
      AllDigits(d, 10) && ValueOf(d, 10) == m
  {
    var d := Digits(m, 10);
    assert Grouped(m) == GroupDigits(d);
    GroupDigitsRoundTrip(d);
    DigitsRoundTrip(m, 10);
  }

  /** A grouped integer starts with a minus sign exactly when it is
      negative, and what follows the sign is its magnitude, grouped. */
  lemma GroupedSign(i: int)
    ensures |Grouped(i)| > 0 && (Grouped(i)[0] == '-' <==> i < 0)
    ensures i < 0 ==> Grouped(i) == "-" + Grouped(-i)
  {
    var d := Digits(if i < 0 then -i else i, 10);
    var gd := GroupDigits(d);
    if i >= 0 {
      assert Grouped(i) == gd;
      assert gd[0] != '-' by {
        GroupDigitsCommas(d);
        assert gd[0] == ',' || IsDigit(gd[0], 10);
      }
    }
  }

  /** The en-US format of a magnitude with between `minFrac` and `maxFrac`
      fraction digits. */
  function LocaleMagnitude(x: real, minFrac: nat, maxFrac: nat): string
    requires x >= 0.0 && minFrac <= maxFrac
  {
    var p := Pow10(maxFrac);
    var q := RoundHalfUp(ScaleUp(x, maxFrac));
    QuotientNat(q, p);
    var fraction := TrimZeros(FracDigits(q % p, maxFrac), minFrac);
    GroupDigits(Digits(q / p, 10)) + (if fraction == [] then "" else "." + fraction)
  }

  /** Number.prototype.toLocaleString('en-US', {minimumFractionDigits,
      maximumFractionDigits}) (ECMA-402): NaN is written "NaN", a negative
      number gets a minus sign before its formatted magnitude. */
  function LocaleFormat(n: Number, minFrac: nat, maxFrac: nat): (t: string)
    requires minFrac <= maxFrac
    ensures |t| > 0
    ensures t == "NaN" <==> n.NaN?
    ensures t[0] == '-' <==> n.Finite? && n.r < 0.0
  {
    match n
    case NaN => "NaN"
    case Finite(x) =>
      var m := if x < 0.0 then -x else x;
      MagnitudeStartsWithDigit(m, minFrac, maxFrac);
      assert !IsDigit("NaN"[0], 10);
      (if x < 0.0 then "-" else "") + LocaleMagnitude(m, minFrac, maxFrac)
  }

  /** The formatted magnitude starts with a digit: the grouped integer
      part comes first. */
  lemma MagnitudeStartsWithDigit(x: real, minFrac: nat, maxFrac: nat)
    requires x >= 0.0 && minFrac <= maxFrac
    ensures |LocaleMagnitude(x, minFrac, maxFrac)| > 0 && IsDigit(LocaleMagnitude(x, minFrac, maxFrac)[0], 10)
  {
    var p := Pow10(maxFrac);
    var q := RoundHalfUp(ScaleUp(x, maxFrac));
    QuotientNat(q, p);
    GroupDigitsHead(Digits(q / p, 10));
  }

  /** Grouping keeps the first digit in front. */
  lemma {:induction false} GroupDigitsHead(d: string)
    requires d != []
    ensures GroupDigits(d) != [] && GroupDigits(d)[0] == d[0]
    decreases |d|
  {
    if |d| > 3 {
      GroupDigitsHead(d[..|d| - 3]);
    }
  }

  /** The en-US defaults of `toLocaleString('en-US')`: no required
      fraction digit and at most three. */
  const DefaultMinFraction: nat := 0
  const DefaultMaxFraction: nat := 3

  /** An integral number, however many fraction digits are allowed, is
      written as its grouped integer when none are required. */
  lemma LocaleOfInteger(k: int, maxFrac: nat)
    ensures LocaleFormat(Finite(k as real), 0, maxFrac) == Grouped(k)
  {
    var m: nat := if k < 0 then -k else k;
    assert (if k < 0 then -(k as real) else k as real) == m as real;
    MagnitudeOfInteger(m, maxFrac);
  }

  lemma MagnitudeOfInteger(m: nat, maxFrac: nat)
    ensures LocaleMagnitude(m as real, 0, maxFrac) == GroupDigits(Digits(m, 10))
  {
    var p := Pow10(maxFrac);
    var y := ScaleUp(m as real, maxFrac);
    assert y == (m * p) as real;
    var q := RoundHalfUp(y);
    assert q == m * p;
    DivisionUnique(q, p, m, 0);
    ZerosTrimAway(maxFrac);
  }

  /** Digits of zero, trimmed down to nothing required, vanish. */
  lemma {:induction false} ZerosTrimAway(width: nat)
    ensures TrimZeros(FracDigits(0, width), 0) == []
  {
    if width > 0 {
      var s := FracDigits(0, width);
      assert s == FracDigits(0, width - 1) + ['0'];
      assert s[..width - 1] == FracDigits(0, width - 1);
      ZerosTrimAway(width - 1);
    }
  }

  /** When as many fraction digits are required as allowed, the format
      ends in a point and exactly that many digits. */
  lemma LocaleFixedFraction(x: real, digits: nat)
    requires x >= 0.0 && digits > 0
    ensures var r := LocaleMagnitude(x, digits, digits);
      |r| > digits && r[|r| - digits - 1] == '.' && AllDigits(r[|r| - digits..], 10)
  {
    var p := Pow10(digits);
    var q := RoundHalfUp(ScaleUp(x, digits));
    QuotientNat(q, p);
    var b := FracDigits(q % p, digits);
    var r := GroupDigits(Digits(q / p, 10)) + "." + b;
    assert LocaleMagnitude(x, digits, digits) == r;
    assert r[|r| - digits..] == b;
  }

  /** Number.prototype.toFixed(f) (section 21.1.3.3 of ECMA-262): NaN is
      "NaN", a negative number gets a minus sign. */
  function ToFixed(n: Number, f: nat): (t: string)
    ensures n.NaN? ==> t == "NaN"
    ensures n.Finite? && 0.0 <= n.r < FixedLimit && f > 0 ==> ReadsAsFixed(t, f, RoundHalfUp(ScaleUp(n.r, f)))
    ensures n.Finite? && -FixedLimit < n.r < 0.0 && f > 0 ==>
      |t| > 0 && t[0] == '-' && ReadsAsFixed(t[1..], f, RoundHalfUp(ScaleUp(-n.r, f)))
  {
    match n
    case NaN => "NaN"
    case Finite(x) =>
      var m := if x < 0.0 then -x else x;
      FixedReadsBackBelowLimit(m, f);
      if x < 0.0 then "-" + FixedMagnitude(m, f) else FixedMagnitude(m, f)
  }

  /** 10^21, from which toFixed falls back to Number::toString. */
  const FixedLimit: real := 1000000000000000000000.0

  /** toFixed on a magnitude: from 10^21 on, the plain number string;
      otherwise the integer `n` nearest to x·10^f (the larger on a tie),
      written with its last `f` digits after a point and at least one
      digit before it. */
  function FixedMagnitude(x: real, f: nat): string
    requires x >= 0.0
  {
    if x >= FixedLimit then NumberToString(Finite(x))
    else
      var p := Pow10(f);
      var n := RoundHalfUp(ScaleUp(x, f));
      QuotientNat(n, p);
      if f == 0 then Digits(n, 10) else Digits(n / p, 10) + "." + FracDigits(n % p, f)
  }

  /** `s` is digits, a point and `f` digits, and read without its point it
      is worth `n`: the string shows n / 10^f. */
  predicate ReadsAsFixed(s: string, f: nat, n: nat) {
    var k := |s| - f - 1;
    && 1 <= k < |s| && s[k] == '.'
    && AllDigits(s[..k], 10) && AllDigits(s[k + 1..], 10)
    && ValueOf(s[..k], 10) * Pow10(f) + ValueOf(s[k + 1..], 10) == n
  }

  /** Below 10^21 the toFixed string shows the nearest multiple of 10^-f
      (the larger one on a tie), with exactly `f` digits after the point. */
  /** `FixedReadsBack` for every non-negative value, as an implication. */
  lemma FixedReadsBackBelowLimit(x: real, f: nat)
    requires x >= 0.0
    ensures x < FixedLimit && f > 0 ==> ReadsAsFixed(FixedMagnitude(x, f), f, RoundHalfUp(ScaleUp(x, f)))
  {
    if x < FixedLimit && f > 0 {
      FixedReadsBack(x, f);
    }
  }

  lemma FixedReadsBack(x: real, f: nat)
    requires 0.0 <= x < FixedLimit && f > 0
    ensures ReadsAsFixed(FixedMagnitude(x, f), f, RoundHalfUp(ScaleUp(x, f)))
  {
    var p := Pow10(f);
    var n := RoundHalfUp(ScaleUp(x, f));
    QuotientNat(n, p);
    var a, b := Digits(n / p, 10), FracDigits(n % p, f);
    assert FixedMagnitude(x, f) == a + "." + b;
    PointedSplit(a, b);
    PointedValue(n, f);
  }

  /** toFixed of a whole number below 10^21 is its digits, a point and
      `f` zeros. */
  lemma FixedOfWhole(m: nat, f: nat)
    requires f > 0 && (m as real) < FixedLimit
    ensures FixedMagnitude(m as real, f) == Digits(m, 10) + "." + FracDigits(0, f)
  {
    var p := Pow10(f);
    var y := ScaleUp(m as real, f);
    assert y == (m * p) as real;
    var q := RoundHalfUp(y);
    assert q == m * p;
    DivisionUnique(q, p, m, 0);
  }

  /** Where the point sits in digits, a point and digits. */
  lemma PointedSplit(a: string, b: string)
    ensures var r := a + "." + b;
      var k := |r| - |b| - 1;
      k == |a| && r[k] == '.' && r[..k] == a && r[k + 1..] == b
  {
  }

  /** The digits of n / 10^f and the last `f` digits of `n` together are
      worth `n`. */
  lemma PointedValue(n: nat, f: nat)
    ensures var p := Pow10(f);
      n / p >= 0 && ValueOf(Digits(n / p, 10), 10) * p + ValueOf(FracDigits(n % p, f), 10) == n
  {
    var p := Pow10(f);
    QuotientNat(n, p);
    var q, r := n / p, n % p;
    DigitsRoundTrip(q, 10);
    FracDigitsValue(r, f);
    DivisionUnique(r, p, 0, r);
    assert ValueOf(Digits(q, 10), 10) == q;
    assert ValueOf(FracDigits(r, f), 10) == r;
    DivMod10(n, p);
    assert q * p + r == n;
  }

  /** Euclidean division by a positive divisor puts the number back
      together. */
  lemma DivMod10(n: nat, p: nat)
    requires p >= 1
    ensures (n / p) * p + n % p == n
  {
  }

  /** `v.toLocaleString('en-US', options)` for a value that is not
      undefined or null: numbers are formatted, strings are themselves,
      booleans and objects become their strings, and arrays join their
      elements' formats with "," (undefined and null elements give ""). */
  function ToLocaleText(v: Value, minFrac: nat, maxFrac: nat): (t: string)
    requires !IsNullish(v) && minFrac <= maxFrac
    ensures v.Num? ==> t == LocaleFormat(v.n, minFrac, maxFrac)
    ensures v.Str? ==> t == v.s
    decreases v, 1
  {
    match v
    case Num(n) => LocaleFormat(n, minFrac, maxFrac)
    case Str(s) => s
    case Bool(b) => if b then "true" else "false"
    case Obj(_) => "[object Object]"
    case Arr(_) => LocaleJoinFrom(v, 0, minFrac, maxFrac)
  }

  function LocaleJoinFrom(arr: Value, from: nat, minFrac: nat, maxFrac: nat): string
    requires arr.Arr? && from <= |arr.elems| && minFrac <= maxFrac
    decreases arr, 0, |arr.elems| - from
  {
    if from == |arr.elems| then ""
    else
      var x := arr.elems[from];
      (if from > 0 then "," else "") + (if IsNullish(x) then "" else ToLocaleText(x, minFrac, maxFrac))
        + LocaleJoinFrom(arr, from + 1, minFrac, maxFrac)
  }

  /** Grouping the fallback transaction count of the dashboard. */
  lemma GroupedFallbackCount()
    ensures Grouped(145890) == "145,890"
  {
    assert Digits(145890, 10) == "145890";
    GroupStep("145890");
    assert "145890"[..3] == "145" && "145890"[3..] == "890";
  }

  /** Grouping the fallback block height of the dashboard. */
  lemma GroupedFallbackBlock()
    ensures Grouped(14661297) == "14,661,297"
  {
    BlockDigits();
    GroupStep("14661297");
    assert "14661297"[..5] == "14661" && "14661297"[5..] == "297";
    GroupStep("14661");
    assert "14661"[..2] == "14" && "14661"[2..] == "661";
  }

  lemma BlockDigits()
    ensures Digits(14661297, 10) == "14661297"
  {
  }

  lemma GroupStep(d: string)
    requires |d| > 3
    ensures GroupDigits(d) == GroupDigits(d[..|d| - 3]) + "," + d[|d| - 3..]
  {
  }
}

=== FILE: js.dfy ===
/** The part of JavaScript's value semantics that the dashboard script
    relies on: values as JSON delivers them, truthiness and `||`, property
    access, strict equality with a literal, the conversions ToString and
    ToNumber, String.prototype.trim and the global `parseInt`. Section
    numbers refer to ECMA-262. */
module Js {
  import opened Numerals

  /** A Number value: NaN or a finite value (held exactly). */
  datatype Number = NaN | Finite(r: real)

  /** A value as a parsed JSON response or an object literal of the script
      produces it. `Obj` holds only the object's own properties. */
  datatype Value =
    | Undefined
    | Null
    | Bool(b: bool)
    | Num(n: Number)
    | Str(s: string)
    | Obj(props: map<string, Value>)
    | Arr(elems: seq<Value>)

  /** How an expression ends: with a value, or by throwing a TypeError. */
  datatype Completion<T> = Normal(value: T) | TypeError

  predicate IsNullish(v: Value) {
    v.Undefined? || v.Null?
  }

  predicate IsPrimitive(v: Value) {
    !v.Obj? && !v.Arr?
  }

  /** ToBoolean (section 7.1.2): the falsy values are undefined, null,
      false, 0, NaN and the empty string. */
  predicate Truthy(v: Value) {
    match v
    case Undefined => false
    case Null => false
    case Bool(b) => b
    case Num(n) => n.Finite? && n.r != 0.0
    case Str(s) => s != ""
    case Obj(_) => true
    case Arr(_) => true
  }

  /** `a || b` (section 13.13): the left operand when it is truthy,
      otherwise the right one. */
  function Or(a: Value, b: Value): Value {
    if Truthy(a) then a else b
  }

  /** `v.key` on an own property: reading from undefined or null throws;
      a missing property reads as undefined; arrays and strings have a
      `length`. */
  function Get(v: Value, key: string): (r: Completion<Value>)
    ensures r.TypeError? <==> IsNullish(v)
  {
    match v
    case Undefined => TypeError
    case Null => TypeError
    case Obj(props) => Normal(if key in props then props[key] else Undefined)
    case Arr(xs) => Normal(if key == "length" then Num(Finite(|xs| as real)) else Undefined)
    case Str(s) => Normal(if key == "length" then Num(Finite(|s| as real)) else Undefined)
    case Bool(_) => Normal(Undefined)
    case Num(_) => Normal(Undefined)
  }

  /** `v === p` for a primitive literal `p` (IsStrictlyEqual, section
      7.2.15): NaN equals nothing, and no object equals a primitive. */
  predicate StrictEquals(v: Value, p: Value)
    requires IsPrimitive(p)
  {
    if p.Num? then v.Num? && v.n.Finite? && p.n.Finite? && v.n.r == p.n.r else v == p
  }

  /** Number::toString (section 6.1.6.1.20) for an integer. */
  function IntegerString(i: int): string {
    if i < 0 then "-" + Digits(-i, 10) else Digits(i, 10)
  }

  /** At most `places` decimal digits of a fraction in [0, 1), stopping
      as soon as the rest is zero. */
  function FractionDigits(f: real, places: nat): string
    requires 0.0 <= f < 1.0
    decreases places
  {
    if f == 0.0 || places == 0 then ""
    else
      var d := (f * 10.0).Floor;
      [DigitChar(d)] + FractionDigits(f * 10.0 - d as real, places - 1)
  }

  /** Number::toString (section 6.1.6.1.20). */
  function NumberToString(n: Number): string {
    match n
    case NaN => "NaN"
    case Finite(r) =>
      if r == r.Floor as real then IntegerString(r.Floor)
      else
        var m := if r < 0.0 then -r else r;
        (if r < 0.0 then "-" else "") + Digits(m.Floor, 10) + "." + FractionDigits(m - m.Floor as real, 20)
  }

  /** ToString (section 7.1.17); an object becomes "[object Object]" and
      an array the join of its elements (Array.prototype.join). */
  function ToString(v: Value): string
    decreases v, 1
  {
    match v
    case Undefined => "undefined"
    case Null => "null"
    case Bool(b) => if b then "true" else "false"
    case Num(n) => NumberToString(n)
    case Str(s) => s
    case Obj(_) => "[object Object]"
    case Arr(_) => JoinFrom(v, 0)
  }

  /** The elements of `arr` from index `from` on, joined with ","; undefined
      and null elements contribute the empty string. */
  function JoinFrom(arr: Value, from: nat): string
    requires arr.Arr? && from <= |arr.elems|
    decreases arr, 0, |arr.elems| - from
  {
    if from == |arr.elems| then ""
    else
      var x := arr.elems[from];
      (if from > 0 then "," else "") + (if IsNullish(x) then "" else ToString(x)) + JoinFrom(arr, from + 1)
  }

  /** WhiteSpace and LineTerminator code points (sections 12.2 and 12.3):
      tab, vertical tab, form feed, the Unicode space separators, the byte
      order mark, line feed, carriage return and the line and paragraph
      separators. Trimming and number parsing skip these. */
  predicate IsWhiteSpace(c: char) {
    || c == '\t' || c == '\U{000B}' || c == '\U{000C}' || c == '\U{FEFF}'
    || c == ' ' || c == '\U{00A0}' || c == '\U{1680}' || '\U{2000}' <= c <= '\U{200A}'
    || c == '\U{202F}' || c == '\U{205F}' || c == '\U{3000}'
    || c == '\n' || c == '\r' || c == '\U{2028}' || c == '\U{2029}'
  }

  /** Every character of `s` from index `lo` up to `hi` is white space. */
  predicate WhiteSpaceBetween(s: string, lo: int, hi: int)
    requires 0 <= lo <= hi <= |s|
  {
    forall i :: lo <= i < hi ==> IsWhiteSpace(s[i])
  }

  predicate AllWhiteSpace(s: string) {
    WhiteSpaceBetween(s, 0, |s|)
  }

  /** How many white space characters `s` starts with. */
  function LeadingWhiteSpace(s: string): (n: nat)
    ensures n <= |s| && WhiteSpaceBetween(s, 0, n)
    ensures n < |s| ==> !IsWhiteSpace(s[n])
    decreases |s|
  {
    if s != [] && IsWhiteSpace(s[0]) then
      var n := 1 + LeadingWhiteSpace(s[1..]);
      assert forall i :: 1 <= i < n ==> s[i] == s[1..][i - 1];
      n
    else 0
  }

  /** How many characters of `s` remain once its trailing white space is
      dropped. */
  function KeptBeforeTrailing(s: string): (n: nat)
    ensures n <= |s| && WhiteSpaceBetween(s, n, |s|)
    ensures n > 0 ==> !IsWhiteSpace(s[n - 1])
    decreases |s|
  {
    if s != [] && IsWhiteSpace(s[|s| - 1]) then
      var n := KeptBeforeTrailing(s[..|s| - 1]);
      assert forall i :: n <= i < |s| - 1 ==> s[i] == s[..|s| - 1][i];
      n
    else |s|
  }

  /** TrimString(s, start): `s` without its leading white space. */
  function TrimStart(s: string): (r: string)
    ensures r == [] || !IsWhiteSpace(r[0])
  {
    s[LeadingWhiteSpace(s)..]
  }

  /** TrimString(s, end): `s` without its trailing white space. */
  function TrimEnd(s: string): (r: string)
    ensures r == [] || !IsWhiteSpace(r[|r| - 1])
  {
    s[..KeptBeforeTrailing(s)]
  }

  /** String.prototype.trim (section 22.1.3.32): `s` without its leading
      and trailing white space (TrimIsInfix says where it sits in `s`). */
  function Trim(s: string): (r: string)
    ensures r == [] || (!IsWhiteSpace(r[0]) && !IsWhiteSpace(r[|r| - 1]))
    ensures r == [] <==> AllWhiteSpace(s)
  {
    var t := TrimStart(s);
    var r := TrimEnd(t);
    assert r != [] ==> r[0] == t[0];
    BlankTrimsToNothing(s);
    TrimmedNothing(s);
    r
  }

  /** Trimming leaves nothing only when there was nothing but white space. */
  lemma TrimmedNothing(s: string)
    ensures TrimEnd(TrimStart(s)) == [] ==> AllWhiteSpace(s)
  {
    var t := TrimStart(s);
    if TrimEnd(t) == [] {
      assert t == [];
    }
  }

  /** The trimmed string is the infix of `s` that remains once the white
      space before and after it is cut off. */
  lemma TrimIsInfix(s: string, k: nat)
    requires k == LeadingWhiteSpace(s)
    ensures k + |Trim(s)| <= |s|
    ensures forall i :: 0 <= i < |Trim(s)| ==> Trim(s)[i] == s[k + i]
    ensures WhiteSpaceBetween(s, 0, k) && WhiteSpaceBetween(s, k + |Trim(s)|, |s|)
  {
    var t := TrimStart(s);
    assert forall i :: k <= i < |s| ==> s[i] == t[i - k];
  }

  /** A string that neither starts nor ends with white space is its own trim. */
  lemma TrimKeeps(s: string)
    requires s == [] || (!IsWhiteSpace(s[0]) && !IsWhiteSpace(s[|s| - 1]))
    ensures Trim(s) == s
  {
    TrimStartKeeps(s);
    assert KeptBeforeTrailing(s) == |s|;
    assert s[..|s|] == s;
  }

  /** Nothing is dropped from a string that does not start with white space. */
  lemma TrimStartKeeps(s: string)
    requires s == [] || !IsWhiteSpace(s[0])
    ensures TrimStart(s) == s
  {
    assert LeadingWhiteSpace(s) == 0;
    assert s[0..] == s;
  }

  /** A string of white space only has nothing left after its leading
      white space is dropped. */
  lemma BlankTrimsToNothing(s: string)
    ensures AllWhiteSpace(s) ==> TrimStart(s) == []
  {
  }

  /** Leading white space is skipped up to the first other character. */
  lemma TrimStartSkips(lead: string, s: string)
    requires AllWhiteSpace(lead)
    requires s == [] || !IsWhiteSpace(s[0])
    ensures TrimStart(lead + s) == s
  {
    LeadingBlanks(lead, s);
    assert (lead + s)[|lead|..] == s;
  }

  lemma {:induction false} LeadingBlanks(lead: string, s: string)
    requires AllWhiteSpace(lead)
    requires s == [] || !IsWhiteSpace(s[0])
    ensures LeadingWhiteSpace(lead + s) == |lead|
    decreases |lead|
  {
    if lead != [] {
      assert (lead + s)[1..] == lead[1..] + s;
      assert AllWhiteSpace(lead[1..]) by {
        assert forall i :: 0 <= i < |lead| - 1 ==> lead[1..][i] == lead[i + 1];
      }
      LeadingBlanks(lead[1..], s);
    } else {
      assert lead + s == s;
    }
  }

  function Negate(n: Number): Number {
    match n
    case NaN => NaN
    case Finite(r) => Finite(-r)
  }

  /** The radix a `0x`, `0o` or `0b` prefix announces, or 0. */
  function PrefixRadix(c: char): nat {
    if c == 'x' || c == 'X' then 16 else if c == 'o' || c == 'O' then 8 else if c == 'b' || c == 'B' then 2 else 0
  }

  /** The index of the first occurrence of `a` or `b` in `s`, or `|s|`. */
  function IndexOfEither(s: string, a: char, b: char): (k: nat)
    ensures k <= |s|
    ensures forall i :: 0 <= i < k ==> s[i] != a && s[i] != b
    ensures k < |s| ==> s[k] == a || s[k] == b
    decreases |s|
  {
    if s == [] then 0 else if s[0] == a || s[0] == b then 0 else 1 + IndexOfEither(s[1..], a, b)
  }

  /** 10 to an integer power, as a real. */
  function Scale(e: int): (p: real)
    ensures p > 0.0
  {
    if e >= 0 then Pow10(e) as real else 1.0 / Pow10(-e) as real
  }

  /** The exponent after `e`/`E`: an optional sign and at least one
      decimal digit; NaN when malformed. */
  function ExponentValue(x: string): Number {
    var negative := x != [] && x[0] == '-';
    var digits := if x != [] && (x[0] == '-' || x[0] == '+') then x[1..] else x;
    if digits != [] && AllDigits(digits, 10) then
      Finite(if negative then -(ValueOf(digits, 10) as real) else ValueOf(digits, 10) as real)
    else NaN
  }

  /** The digits before an exponent: digits with an optional decimal point,
      at least one digit in all; NaN when malformed. */
  function MantissaValue(m: string): Number {
    var p := IndexOfEither(m, '.', '.');
    if p == |m| then
      if m != [] && AllDigits(m, 10) then Finite(ValueOf(m, 10) as real) else NaN
    else
      var whole, fraction := m[..p], m[p + 1..];
      if AllDigits(whole, 10) && AllDigits(fraction, 10) && |whole| + |fraction| > 0 then
        Finite(ValueOf(whole, 10) as real + ValueOf(fraction, 10) as real / Pow10(|fraction|) as real)
      else NaN
  }

  /** StrUnsignedDecimalLiteral (section 7.1.4.1): a mantissa and an
      optional exponent. */
  function UnsignedDecimal(u: string): Number {
    var e := IndexOfEither(u, 'e', 'E');
    var mantissa := MantissaValue(u[..e]);
    var exponent := if e < |u| then ExponentValue(u[e + 1..]) else Finite(0.0);
    if mantissa.Finite? && exponent.Finite? then
      Finite(mantissa.r * Scale(exponent.r.Floor))
    else NaN
  }

  /** StringToNumber (section 7.1.4.1.1): white space around the literal is
      ignored, the empty string is 0, a signed decimal literal or an
      unsigned `0x`/`0o`/`0b` literal is read, anything else is NaN. */
  function StringToNumber(s: string): (n: Number)
    ensures AllWhiteSpace(s) ==> n == Finite(0.0)
  {
    var t := Trim(s);
    if t == [] then Finite(0.0)
    else if |t| >= 3 && t[0] == '0' && PrefixRadix(t[1]) != 0 then
      var radix: Radix := PrefixRadix(t[1]);
      if AllDigits(t[2..], radix) then Finite(ValueOf(t[2..], radix) as real) else UnsignedDecimal(t)
    else if t[0] == '-' then Negate(UnsignedDecimal(t[1..]))
    else if t[0] == '+' then UnsignedDecimal(t[1..])
    else UnsignedDecimal(t)
  }

  /** ToNumber (section 7.1.4); an object or array is first turned into its
      string (ToPrimitive with hint number ends in toString for both). */
  function ToNumber(v: Value): (n: Number)
    ensures v.Num? ==> n == v.n
    ensures v == Undefined ==> n == NaN
    ensures v == Null || v == Bool(false) ==> n == Finite(0.0)
    ensures v.Str? && AllWhiteSpace(v.s) ==> n == Finite(0.0)
  {
    match v
    case Undefined => NaN
    case Null => Finite(0.0)
    case Bool(b) => Finite(if b then 1.0 else 0.0)
    case Num(n) => n
    case Str(s) => StringToNumber(s)
    case Obj(_) => StringToNumber(ToString(v))
    case Arr(_) => StringToNumber(ToString(v))
  }

  /** A decimal digit string converts to its value. */
  lemma DecimalStringToNumber(n: nat)
    ensures StringToNumber(Digits(n, 10)) == Finite(n as real)
  {
    var s := Digits(n, 10);
    assert IsDigit(s[0], 10) && IsDigit(s[|s| - 1], 10);
    assert !IsWhiteSpace(s[0]) && !IsWhiteSpace(s[|s| - 1]);
    TrimKeeps(s);
    assert s[0] != '-' && s[0] != '+';
    assert !(|s| >= 3 && s[0] == '0');
    UnsignedDigits(s);
    DigitsRoundTrip(n, 10);
  }

  /** Digits alone, with neither point nor exponent, are worth their value. */
  lemma UnsignedDigits(s: string)
    requires s != [] && AllDigits(s, 10)
    ensures UnsignedDecimal(s) == Finite(ValueOf(s, 10) as real)
  {
    NoDigitIsEither(s, 'e', 'E');
    assert s[..|s|] == s;
    MantissaOfDigits(s);
    assert Scale(0) == 1.0;
  }

  lemma MantissaOfDigits(s: string)
    requires s != [] && AllDigits(s, 10)
    ensures MantissaValue(s) == Finite(ValueOf(s, 10) as real)
  {
    NoDigitIsEither(s, '.', '.');
  }

  /** A string of decimal digits holds no letter or point to stop at. */
  lemma NoDigitIsEither(s: string, a: char, b: char)
    requires AllDigits(s, 10) && !IsDigit(a, 10) && !IsDigit(b, 10)
    ensures IndexOfEither(s, a, b) == |s|
  {
  }

  /** A string that starts with neither white space, a sign, a digit nor
      a point, and does not end in white space, is no number. */
  lemma NotNumeric(s: string)
    requires s != [] && !IsWhiteSpace(s[0]) && !IsWhiteSpace(s[|s| - 1])
    requires !IsDigit(s[0], 10) && s[0] != '.' && s[0] != '-' && s[0] != '+'
    ensures StringToNumber(s) == NaN
  {
    TrimKeeps(s);
    var e := IndexOfEither(s, 'e', 'E');
    var m := s[..e];
    assert MantissaValue(m) == NaN by {
      if m != [] {
        assert m[0] == s[0];
        var p := IndexOfEither(m, '.', '.');
        if p < |m| {
          assert m[..p][0] == s[0];
        }
      }
    }
  }

  /** An object converts to NaN: its string "[object Object]" is no number. */
  lemma ObjectToNumber(v: Value)
    requires v.Obj?
    ensures ToNumber(v) == NaN
  {
    var s := ToString(v);
    assert s == "[object Object]";
    NotNumeric(s);
  }

  /** The string after one leading sign character, if any. */
  function DropSign(s: string): string {
    if s != [] && (s[0] == '-' || s[0] == '+') then s[1..] else s
  }

  /** For radix 16, the string after a leading `0x` or `0X`, if any. */
  function DropHexPrefix(s: string, radix: Radix): string {
    if radix == 16 && |s| >= 2 && s[0] == '0' && (s[1] == 'x' || s[1] == 'X') then s[2..] else s
  }

  /** `parseInt(string, radix)` (section 19.2.5) for a radix from 2 to 16,
      once its argument is a string: leading white space is skipped, then
      the rest is read by ParseIntTrimmed. */
  function ParseIntString(str: string, radix: Radix): Number {
    ParseIntTrimmed(TrimStart(str), radix)
  }

  /** The rest of `parseInt` after the white space: one sign is read,
      radix 16 also skips a `0x`/`0X` prefix, and the longest run of digits
      is read; no digit at all gives NaN. */
  function ParseIntTrimmed(s: string, radix: Radix): (n: Number)
    ensures n.Finite? ==> n.r == n.r.Floor as real
    ensures var body := DropHexPrefix(DropSign(s), radix);
      n.NaN? <==> body == [] || !IsDigit(body[0], radix)
    ensures n.Finite? && s != [] && s[0] == '-' ==> n.r <= 0.0
    ensures n.Finite? && (s == [] || s[0] != '-') ==> n.r >= 0.0
  {
    var body := DropHexPrefix(DropSign(s), radix);
    var k := DigitRun(body, radix);
    if k == 0 then NaN
    else
      var m: int := ValueOf(body[..k], radix);
      var signed := if s != [] && s[0] == '-' then -m else m;
      Finite(signed as real)
  }

  /** The global `parseInt(input, radix)`: its argument is first turned
      into a string. */
  function ParseInt(input: Value, radix: Radix): (n: Number)
    ensures n.Finite? ==> n.r == n.r.Floor as real
  {
    ParseIntString(ToString(input), radix)
  }

  /** Reading `0x` followed by the hexadecimal digits of `n`, after any
      white space and before anything that is not a hex digit, gives `n`. */
  lemma HexRoundTrip(lead: string, n: nat, rest: string)
    requires AllWhiteSpace(lead)
    requires rest == [] || !IsHexDigit(rest[0])
    ensures ParseInt(Str(lead + "0x" + Digits(n, 16) + rest), 16) == Finite(n as real)
  {
    var s := "0x" + Digits(n, 16) + rest;
    var str := lead + "0x" + Digits(n, 16) + rest;
    assert str == lead + s;
    assert ToString(Str(str)) == str;
    assert s[0] == '0';
    TrimStartSkips(lead, s);
    PrefixedHexDigits(n, rest);
    assert ParseIntString(str, 16) == ParseIntTrimmed(s, 16);
  }

  lemma PrefixedHexDigits(n: nat, rest: string)
    requires rest == [] || !IsHexDigit(rest[0])
    ensures ParseIntTrimmed("0x" + Digits(n, 16) + rest, 16) == Finite(n as real)
  {
    var h := Digits(n, 16);
    var s := "0x" + h + rest;
    assert s[0] == '0' && s[1] == 'x';
    assert s[2..] == h + rest;
    assert DropSign(s) == s;
    assert DropHexPrefix(s, 16) == h + rest;
    DigitRunOfDigitsThen(h, rest, 16);
    assert (h + rest)[..|h|] == h;
    DigitsRoundTrip(n, 16);
  }

  /** A string that does not start with a digit, a sign or white space
      parses to NaN rather than throwing. */
  lemma ParseIntWithoutDigits(s: string, radix: Radix)
    requires s != [] && !IsHexDigit(s[0]) && !IsWhiteSpace(s[0]) && s[0] != '-' && s[0] != '+'
    ensures ParseInt(Str(s), radix) == NaN
  {
    TrimStartKeeps(s);
    assert DropSign(s) == s;
    assert DropHexPrefix(s, radix) == s;
    assert DigitRun(s, radix) == 0;
  }

  /** `parseInt(undefined, 16)` reads the string "undefined" and gives NaN. */
  lemma ParseIntUndefined()
    ensures ParseInt(Undefined, 16) == NaN
  {
    assert ToString(Undefined) == "undefined";
    ParseIntWithoutDigits("undefined", 16);
  }

  /** `n / d` for a non-zero divisor: NaN stays NaN. */
  function Divide(n: Number, d: real): (q: Number)
    requires d != 0.0
    ensures q.Finite? <==> n.Finite?
    ensures q.Finite? ==> q.r * d == n.r
  {
    match n
    case NaN => NaN
    case Finite(r) => Finite(r / d)
  }

  /** A string index clamped to [0, len]. */
  function Clamp(k: int, len: nat): (c: nat)
    ensures c <= len
    ensures 0 <= k <= len ==> c == k
  {
    if k < 0 then 0 else if k > len then len else k
  }

  /** `s.substring(start, end)` (section 22.1.3.25): both ends are clamped
      to [0, |s|] and the smaller one is taken as the start. */
  function Substring(s: string, start: int, end: int): (r: string)
    ensures var a, b := Clamp(start, |s|), Clamp(end, |s|);
      |r| == (if a <= b then b - a else a - b)
  {
    var a, b := Clamp(start, |s|), Clamp(end, |s|);
    if a <= b then s[a..b] else s[b..a]
  }

  /** `s.slice(start)` (section 22.1.3.22): a negative start counts back
      from the end of the string. */
  function SliceFrom(s: string, start: int): (r: string)
    ensures |r| <= |s|
  {
    s[Clamp(if start < 0 then |s| + start else start, |s|)..]
  }

  /** `s.substring(0, n)` is the first `n` characters, or all of them when
      the string is shorter. */
  lemma SubstringPrefix(s: string, n: nat)
    ensures var r := Substring(s, 0, n);
      |r| == (if n < |s| then n else |s|) && forall i :: 0 <= i < |r| ==> r[i] == s[i]
  {
  }

  /** `s.slice(-n)` for a positive `n` is the last `n` characters, or all
      of them when the string is shorter. (`slice(-0)` is the whole string.) */
  lemma SliceSuffix(s: string, n: nat)
    requires n > 0
    ensures var r := SliceFrom(s, -(n as int));
      |r| == (if n < |s| then n else |s|) && forall i :: 0 <= i < |r| ==> r[i] == s[|s| - |r| + i]
  {
    var k := Clamp(|s| - n, |s|);
    assert SliceFrom(s, -(n as int)) == s[k..];
    assert k == |s| - (if n < |s| then n else |s|);
  }
}

=== FILE: markup.dfy ===
/** Building a list's HTML row by row, as the display functions do with
    `+=` inside `forEach`: the first row that throws ends the loop. */
module Markup {
  import opened Js

  /** The HTML written so far, and whether a row threw. */
  datatype Partial = Partial(html: string, failed: bool)

  /** The rows' HTML one after the other, up to the first row that throws. */
  function Concat(rows: seq<Completion<string>>): (p: Partial)
    ensures p.failed <==> exists i :: 0 <= i < |rows| && rows[i].TypeError?
    decreases |rows|
  {
    if rows == [] then Partial("", false)
    else
      var front := Concat(rows[..|rows| - 1]);
      assert forall i :: 0 <= i < |rows| - 1 ==> rows[..|rows| - 1][i] == rows[i];
      if front.failed then front
      else
        match rows[|rows| - 1]
        case TypeError => Partial(front.html, true)
        case Normal(item) => Partial(front.html + item, false)
  }

  /** Rows are written in order; once a row has thrown, later rows leave
      no trace. */
  lemma {:induction false} ConcatAppend(a: seq<Completion<string>>, b: seq<Completion<string>>)
    ensures Concat(a + b) ==
      if Concat(a).failed then Concat(a)
      else Partial(Concat(a).html + Concat(b).html, Concat(b).failed)
    decreases |b|
  {
    if b == [] {
      assert a + b == a;
    } else {
      var front := b[..|b| - 1];
      assert (a + b)[..|a + b| - 1] == a + front;
      assert (a + b)[|a + b| - 1] == b[|b| - 1];
      ConcatAppend(a, front);
      if !Concat(a).failed && !Concat(front).failed && b[|b| - 1].Normal? {
        var x, y, z := Concat(a).html, Concat(front).html, b[|b| - 1].value;
        assert x + y + z == x + (y + z);
      }
    }
  }

  /** Appending one more row to rows that all rendered. */
  lemma ConcatStep(rows: seq<Completion<string>>, i: nat)
    requires i < |rows| && !Concat(rows[..i]).failed
    ensures rows[i].TypeError? ==> Concat(rows[..i + 1]) == Partial(Concat(rows[..i]).html, true)
    ensures rows[i].Normal? ==> Concat(rows[..i + 1]) == Partial(Concat(rows[..i]).html + rows[i].value, false)
  {
    assert rows[..i + 1][..i] == rows[..i];
  }

  /** `records.forEach(tx => { html += <the row of tx>; })`: the rows are
      appended one by one, and the first row that throws ends the loop
      with `html` as far as it got. */
  method AppendRows(html: string, records: seq<Value>, render: Value -> Completion<string>)
    returns (out: string, thrown: bool)
    ensures out == html + Concat(Rows(records, render)).html
    ensures thrown == Concat(Rows(records, render)).failed
  {
    ghost var rows := Rows(records, render);
    out, thrown := html, false;
    var i := 0;
    while i < |records| && !thrown
      invariant 0 <= i <= |records|
      invariant thrown == Concat(rows[..i]).failed
      invariant out == html + Concat(rows[..i]).html
    {
      var row := render(records[i]);
      ConcatStep(rows, i);
      if row.TypeError? {
        thrown := true;
      } else {
        assert html + Concat(rows[..i]).html + row.value == html + (Concat(rows[..i]).html + row.value);
        out := out + row.value;
      }
      i := i + 1;
    }
    if thrown {
      ConcatAppend(rows[..i], rows[i..]);
      assert rows[..i] + rows[i..] == rows;
    } else {
      assert rows[..i] == rows;
    }
  }

  /** The row of each record. */
  function Rows(records: seq<Value>, render: Value -> Completion<string>): (rows: seq<Completion<string>>)
    ensures |rows| == |records| && forall i :: 0 <= i < |records| ==> rows[i] == render(records[i])
  {
    seq(|records|, i requires 0 <= i < |records| => render(records[i]))
  }

  /** The first `limit` rows fail exactly when one of the first `limit`
      records does not render. */
  lemma ShownFails(records: seq<Value>, render: Value -> Completion<string>, limit: nat)
    ensures Concat(Rows(Shown(records, limit), render)).failed
      <==> exists i :: 0 <= i < |records| && i < limit && render(records[i]).TypeError?
  {
    var rows := Rows(Shown(records, limit), render);
    if Concat(rows).failed {
      var i :| 0 <= i < |rows| && rows[i].TypeError?;
      assert render(records[i]).TypeError?;
    }
  }

  /** At most `limit` rows are shown: `slice(0, limit)`. */
  function Shown<T>(rows: seq<T>, limit: nat): (r: seq<T>)
    ensures |r| == (if |rows| < limit then |rows| else limit)
    ensures forall i :: 0 <= i < |r| ==> r[i] == rows[i]
  {
    if |rows| < limit then rows else rows[..limit]
  }
}

=== FILE: metrics.dfy ===
/** The four metric cards: the USDC market cap, the current block height,
    the total number of transactions and the finality time. Each card's
    text is a function of what its endpoint returned; `None` means the
    fetch function ended in its `catch` and the card keeps its text. */
module Metrics {
  import opened Numerals
  import opened Js
  import opened Format
  import opened Settings

  const Trillion: real := 1000000000000.0
  const Billion: real := 1000000000.0

  /** `$` and the market cap: in trillions or billions with two decimals
      and a `T` or `B`, otherwise in the en-US default format. Reading
      `toLocaleString` of undefined or null throws, so a nullish cap
      gives no text. */
  function CapText(cap: Value): (t: Option<string>)
    ensures t.None? <==> IsNullish(cap)
    ensures t.Some? ==> |t.value| >= 1 && t.value[0] == '$'
  {
    var n := ToNumber(cap);
    if n.Finite? && n.r >= Trillion then Some("$" + ToFixed(Divide(n, Trillion), 2) + "T")
    else if n.Finite? && n.r >= Billion then Some("$" + ToFixed(Divide(n, Billion), 2) + "B")
    else if IsNullish(cap) then None
    else
      var text := ToLocaleText(cap, DefaultMinFraction, DefaultMaxFraction);
      Some("$" + text)
  }

  /** The market-cap card after a request: only an `ok` response whose
      body has `usd-coin.usd_market_cap` changes it. */
  function MarketCapText(response: Response): (t: Option<string>)
    ensures t.Some? ==> response.Reply? && response.ok && response.json.Some?
    ensures
      && response.Reply? && response.ok && response.json.Some? && !IsNullish(response.json.value)
      && !IsNullish(Get(response.json.value, "usd-coin").value)
      ==> t == CapText(Get(Get(response.json.value, "usd-coin").value, "usd_market_cap").value)
    ensures
      && response.Reply? && response.ok && response.json.Some?
      && (IsNullish(response.json.value) || IsNullish(Get(response.json.value, "usd-coin").value))
      ==> t.None?
  {
    if !response.Reply? || !response.ok || response.json.None? then None
    else
      var data := response.json.value;
      if IsNullish(data) then None
      else
        var coin := Get(data, "usd-coin").value;
        if IsNullish(coin) then None else CapText(Get(coin, "usd_market_cap").value)
  }

  /** Which unit a numeric market cap is shown in. */
  lemma CapUnit(x: real)
    requires x >= 0.0
    ensures var t := CapText(Num(Finite(x))).value;
      && (x >= Trillion ==> t[|t| - 1] == 'T')
      && (Billion <= x < Trillion ==> t[|t| - 1] == 'B')
      && (x < Billion ==> t == "$" + LocaleFormat(Finite(x), DefaultMinFraction, DefaultMaxFraction))
  {
  }

  /** A cap of at least a billion and below a trillion is shown as `$`,
      the whole billions, a point, two digits and `B`, and the digits read
      back as the cap in billions rounded to two decimals (halves up). */
  lemma CapInBillions(x: real)
    requires Billion <= x < Trillion
    ensures var t := CapText(Num(Finite(x))).value;
      && |t| >= 2 && t == "$" + t[1..|t| - 1] + "B"
      && ReadsAsFixed(t[1..|t| - 1], 2, RoundHalfUp(ScaleUp(x / Billion, 2)))
  {
    var y := x / Billion;
    var f := FixedMagnitude(y, 2);
    var t := "$" + f + "B";
    assert CapText(Num(Finite(x))).value == t by {
      assert ToFixed(Divide(Finite(x), Billion), 2) == f;
    }
    assert t[1..|t| - 1] == f;
    FixedReadsBack(y, 2);
  }

  /** The card's first text: the fallback cap of 55 billion. */
  lemma FallbackCapText()
    ensures "$" + ToFixed(Divide(Finite(FallbackUsdcMarketCap), Billion), 2) + "B" == "$55.00B"
  {
    assert Divide(Finite(FallbackUsdcMarketCap), Billion) == Finite(55.0);
    assert ToFixed(Finite(55.0), 2) == "55.00" by {
      FixedOfWhole(55, 2);
      assert Digits(55, 10) == "55";
      assert FracDigits(0, 2) == "00";
    }
  }

  /** The block card after a request: `parseInt(data.result, 16)` in the
      en-US format. Since parseInt never throws, every JSON body other
      than null changes the card, to "NaN" when `result` holds no
      hexadecimal number. */
  function BlockHeightText(response: Response): (t: Option<string>)
    ensures t.Some? <==> Body(response).Some? && !IsNullish(Body(response).value)
  {
    match Body(response)
    case None => None
    case Some(data) =>
      if IsNullish(data) then None
      else Some(LocaleFormat(ParseInt(Get(data, "result").value, 16), DefaultMinFraction, DefaultMaxFraction))
  }

  /** A block number sent as `0x` and hexadecimal digits is shown as that
      number, grouped by thousands. */
  lemma BlockHeightOfHex(ok: bool, fields: map<string, Value>, n: nat)
    requires "result" in fields && fields["result"] == Str("0x" + Digits(n, 16))
    ensures BlockHeightText(Reply(ok, Some(Obj(fields)))) == Some(Grouped(n))
  {
    var result := Str("0x" + Digits(n, 16));
    assert ParseInt(result, 16) == Finite(n as real) by {
      assert "" + "0x" + Digits(n, 16) + "" == "0x" + Digits(n, 16);
      HexRoundTrip("", n, "");
    }
    assert LocaleFormat(Finite(n as real), DefaultMinFraction, DefaultMaxFraction) == Grouped(n) by {
      LocaleOfInteger(n, DefaultMaxFraction);
    }
    assert Get(Obj(fields), "result").value == result;
  }

  /** A body without `result` (an RPC error object, say) turns the card
      into "NaN" instead of leaving the fallback in place. */
  lemma BlockHeightWithoutResult(ok: bool, fields: map<string, Value>)
    requires "result" !in fields
    ensures BlockHeightText(Reply(ok, Some(Obj(fields)))) == Some("NaN")
  {
    var result := Get(Obj(fields), "result").value;
    assert ParseInt(result, 16) == NaN by {
      assert result == Undefined;
      ParseIntUndefined();
    }
  }

  /** The fallback block height, as the card first shows it. */
  lemma FallbackBlockText()
    ensures LocaleFormat(Finite(FallbackBlockHeight as real), DefaultMinFraction, DefaultMaxFraction) == "14,661,297"
  {
    LocaleOfInteger(FallbackBlockHeight, DefaultMaxFraction);
    GroupedFallbackBlock();
  }

  /** `data.transactions_count || data.total_transactions || 0`. */
  function CountChoice(data: Value): (v: Value)
    requires !IsNullish(data)
    ensures Truthy(v) || v == Num(Finite(0.0))
    ensures Truthy(Get(data, "transactions_count").value) ==> v == Get(data, "transactions_count").value
    ensures !Truthy(Get(data, "transactions_count").value) && Truthy(Get(data, "total_transactions").value) ==>
      v == Get(data, "total_transactions").value
    ensures !Truthy(Get(data, "transactions_count").value) && !Truthy(Get(data, "total_transactions").value) ==>
      v == Num(Finite(0.0))
  {
    Or(Or(Get(data, "transactions_count").value, Get(data, "total_transactions").value), Num(Finite(0.0)))
  }

  /** Whether the body gives a count the card can show: a JSON body that
      is not null, whose chosen count is a number other than 0. */
  predicate UsableCount(response: Response) {
    && Body(response).Some?
    && !IsNullish(Body(response).value)
    && CountChoice(Body(response).value).Num?
    && CountChoice(Body(response).value).n != Finite(0.0)
  }

  /** The number the transactions card shows: the first truthy count of
      the body when it is a number, otherwise the fallback. */
  function TotalTransactions(response: Response): (n: Number)
    ensures n.Finite? && n.r != 0.0
    ensures UsableCount(response) ==> n == CountChoice(Body(response).value).n
    ensures !UsableCount(response) ==> n == Finite(FallbackTotalTransactions as real)
  {
    var data := Body(response);
    var v := if data.Some? && !IsNullish(data.value) then CountChoice(data.value) else Num(Finite(0.0));
    if StrictEquals(v, Num(Finite(0.0))) || !v.Num? then Finite(FallbackTotalTransactions as real) else v.n
  }

  /** A non-zero numeric `transactions_count` is shown as it is. */
  lemma CountFromNumber(ok: bool, fields: map<string, Value>, c: real)
    requires "transactions_count" in fields && fields["transactions_count"] == Num(Finite(c)) && c != 0.0
    ensures TotalTransactions(Reply(ok, Some(Obj(fields)))) == Finite(c)
  {
  }

  /** `total_transactions` is used when `transactions_count` is falsy. */
  lemma CountFromTotal(ok: bool, fields: map<string, Value>, c: real)
    requires "transactions_count" !in fields || !Truthy(fields["transactions_count"])
    requires "total_transactions" in fields && fields["total_transactions"] == Num(Finite(c)) && c != 0.0
    ensures TotalTransactions(Reply(ok, Some(Obj(fields)))) == Finite(c)
  {
  }

  /** A count delivered as a non-empty string is truthy, so it is chosen,
      and then rejected for not being a number: the fallback is shown. */
  lemma StringCountFallsBack(ok: bool, fields: map<string, Value>, s: string)
    requires "transactions_count" in fields && fields["transactions_count"] == Str(s) && s != ""
    ensures TotalTransactions(Reply(ok, Some(Obj(fields)))) == Finite(FallbackTotalTransactions as real)
  {
  }

  /** The fallback count, as the card shows it. */
  lemma FallbackCountText()
    ensures LocaleFormat(Finite(FallbackTotalTransactions as real), DefaultMinFraction, DefaultMaxFraction) == "145,890"
  {
    LocaleOfInteger(FallbackTotalTransactions, DefaultMaxFraction);
    GroupedFallbackCount();
  }

  /** `${t.toFixed(2)}s`: the finality card. */
  function SecondsText(t: Number): (s: string)
    ensures |s| > 1 && s[|s| - 1] == 's'
  {
    ToFixed(t, 2) + "s"
  }

  /** The finality time of 1.5 seconds is shown as "1.50s". */
  lemma FinalityShown()
    ensures SecondsText(Finite(FinalityTime)) == "1.50s"
  {
    var x := FinalityTime;
    assert FixedMagnitude(x, 2) == "1.50" by {
      assert RoundHalfUp(ScaleUp(x, 2)) == 150;
      assert Digits(1, 10) == "1";
      assert FracDigits(50, 2) == "50";
    }
  }
}

=== FILE: numerals.dfy ===
/** Digit strings in a radix between 2 and 16: what a run of digits is worth,
    how a natural number is written, and the longest run of digits at the
    front of a string. JavaScript's `parseInt`, `Number` and the en-US
    grouping of the dashboard are built on these. */
module Numerals {

  /** The radixes the model reads and writes: 2 to 16. */
  type Radix = r: nat | 2 <= r <= 16 witness 10

  /** A digit in radix 16, in either case; the lower radixes use a prefix of these. */
  predicate IsHexDigit(c: char) {
    '0' <= c <= '9' || 'a' <= c <= 'f' || 'A' <= c <= 'F'
  }

  function DigitValue(c: char): (d: nat)
    requires IsHexDigit(c)
    ensures d < 16
  {
    if '0' <= c <= '9' then c as int - '0' as int
    else if 'a' <= c <= 'f' then c as int - 'a' as int + 10
    else c as int - 'A' as int + 10
  }

  predicate IsDigit(c: char, radix: Radix) {
    IsHexDigit(c) && DigitValue(c) < radix
  }

  predicate AllDigits(s: string, radix: Radix) {
    forall i :: 0 <= i < |s| ==> IsDigit(s[i], radix)
  }

  /** The value of a digit string, most significant digit first; "" is worth 0. */
  function ValueOf(s: string, radix: Radix): nat
    requires AllDigits(s, radix)
    decreases |s|
  {
    if s == [] then 0 else ValueOf(s[..|s| - 1], radix) * radix + DigitValue(s[|s| - 1])
  }

  /** The lower-case digit for a value below 16. */
  function DigitChar(d: nat): (c: char)
    requires d < 16
    ensures IsHexDigit(c) && DigitValue(c) == d
  {
    if d < 10 then ('0' as int + d) as char else ('a' as int + d - 10) as char
  }

  /** How `n` is written in `radix`: lower-case digits, no leading zero. */
  function Digits(n: nat, radix: Radix): (s: string)
    ensures |s| > 0 && AllDigits(s, radix)
    ensures s[0] == '0' ==> s == "0"
    decreases n
  {
    if n < radix then [DigitChar(n)]
    else
      QuotientSmaller(n, radix);
      var front := Digits(n / radix, radix);
      var s := front + [DigitChar(n % radix)];
      assert forall i :: 0 <= i < |front| ==> s[i] == front[i];
      s
  }

  /** Reading back what `Digits` writes gives the number again. */
  lemma {:induction false} DigitsRoundTrip(n: nat, radix: Radix)
    ensures ValueOf(Digits(n, radix), radix) == n
    decreases n
  {
    if n >= radix {
      var q, d := n / radix, n % radix;
      assert Digits(n, radix) == Digits(q, radix) + [DigitChar(d)];
      QuotientSmaller(n, radix);
      DigitsRoundTrip(q, radix);
      AppendDigit(Digits(q, radix), DigitChar(d), radix);
      DivMod(n, radix);
    }
  }

  lemma QuotientSmaller(n: nat, radix: Radix)
    requires n >= radix
    ensures n / radix < n
  {
  }

  lemma DivMod(n: nat, radix: Radix)
    ensures n == (n / radix) * radix + n % radix
  {
  }

  /** Appending one digit multiplies by the radix and adds the digit. */
  lemma AppendDigit(s: string, c: char, radix: Radix)
    requires AllDigits(s, radix) && IsDigit(c, radix)
    ensures AllDigits(s + [c], radix)
    ensures ValueOf(s + [c], radix) == ValueOf(s, radix) * radix + DigitValue(c)
  {
    assert (s + [c])[..|s + [c]| - 1] == s;
  }

  /** The length of the longest prefix of `s` made of digits of `radix`. */
  function DigitRun(s: string, radix: Radix): (k: nat)
    ensures k <= |s| && AllDigits(s[..k], radix)
    ensures k < |s| ==> !IsDigit(s[k], radix)
    decreases |s|
  {
    if s == [] || !IsDigit(s[0], radix) then 0
    else
      var k := 1 + DigitRun(s[1..], radix);
      assert s[..k] == [s[0]] + s[1..][..k - 1];
      k
  }

  /** The run is read up to the first character that is not a digit. */
  lemma {:induction false} DigitRunOfDigitsThen(s: string, t: string, radix: Radix)
    requires AllDigits(s, radix)
    requires t == [] || !IsDigit(t[0], radix)
    ensures DigitRun(s + t, radix) == |s|
    decreases |s|
  {
    if s != [] {
      assert (s + t)[1..] == s[1..] + t;
      DigitRunOfDigitsThen(s[1..], t, radix);
    } else {
      assert s + t == t;
    }
  }

  /** 10 to the power `e`. */
  function Pow10(e: nat): (p: nat)
    ensures p >= 1
  {
    if e == 0 then 1 else 10 * Pow10(e - 1)
  }
}

=== FILE: page.dfy ===
/** The dashboard page: the texts of its four metric cards and the HTML of
    its two lists, and the functions of the script that rewrite them. A
    response stands for what the fetch of an endpoint gave (see
    `Settings.Response`); the time of day of a timestamp is the `clock`
    parameter. A method that `returns (thrown)` reports whether a
    TypeError escaped from it. */
module Page {
  import opened Js
  import opened Format
  import opened Settings
  import opened Markup
  import opened Metrics
  import opened Transfers
  import opened Stream

  /** What the page shows: the texts of the four metric cards and the HTML
      of the two lists. */
  datatype Screen = Screen(marketCap: string, currentBlock: string, totalTransactions: string,
                           finality: string, bigTransactions: string, recentTransactions: string)

  /** The text of a card after its fetch function: the new text, or the
      old one when the function ended in its `catch`. */
  function Shows(text: Option<string>, current: string): string {
    if text.Some? then text.value else current
  }

  /** The screen after one `loadMetrics` cycle, given what each of the
      five endpoints returned: the market-cap and block cards change only
      when their fetch reaches the end of its `try` block, the transaction
      card always changes, the finality card never does, and the recent
      list keeps its HTML when its display throws, or when the big-transfer
      display threw and ended the cycle before it. */
  function Refreshed(s: Screen, market: Response, block: Response, stats: Response, big: Response, recent: Response,
                     clock: Value -> string): (r: Screen)
    ensures r.finality == s.finality
    ensures MarketCapText(market).None? ==> r.marketCap == s.marketCap
    ensures BlockHeightText(block).None? ==> r.currentBlock == s.currentBlock
    ensures BigTransfersHtml(SelectBigTransfers(big).0, clock).failed ==> r.recentTransactions == s.recentTransactions
  {
    var bigList := BigTransfersHtml(SelectBigTransfers(big).0, clock);
    var chosen := SelectRecentTransactions(recent, clock);
    var recentList := RecentTransactionsHtml(chosen.0, chosen.1);
    Screen(Shows(MarketCapText(market), s.marketCap),
           Shows(BlockHeightText(block), s.currentBlock),
           LocaleFormat(TotalTransactions(stats), DefaultMinFraction, DefaultMaxFraction),
           s.finality,
           bigList.html,
           if bigList.failed || recentList.TypeError? then s.recentTransactions else recentList.value)
  }

  /** The screen after the last three steps of `initializeMetrics`: the
      finality time and the two fallback lists, the recent one only when it
      does not throw. */
  function WithFallbacks(s: Screen, clock: Value -> string): Screen
  {
    var recentList := RecentTransactionsHtml(Arr(FallbackRecentTransactions), true);
    s.(finality := SecondsText(Finite(FinalityTime)),
       bigTransactions := BigTransfersHtml(FallbackBigTransfers, clock).html,
       recentTransactions := if recentList.Normal? then recentList.value else s.recentTransactions)
  }

  /** The screen after the first lines of `initializeMetrics`: the three
      fallback figures on their cards. */
  function WithFigures(s: Screen): Screen
  {
    s.(marketCap := "$" + ToFixed(Divide(Finite(FallbackUsdcMarketCap), Billion), 2) + "B",
       currentBlock := LocaleFormat(Finite(FallbackBlockHeight as real), DefaultMinFraction, DefaultMaxFraction),
       totalTransactions := LocaleFormat(Finite(FallbackTotalTransactions as real), DefaultMinFraction, DefaultMaxFraction))
  }

  /** The page before the script runs. */
  const Blank := Screen("", "", "", "", "", "")

  /** The screen `initializeMetrics` leaves on a blank page. */
  function Initial(clock: Value -> string): Screen
  {
    WithFallbacks(WithFigures(Blank), clock)
  }

  /** The first screen shows the cards "$55.00B", "14,661,297",
      "145,890" and "1.50s", the three fallback transfers, and the five
      fallback transactions under the warning; neither list throws. */
  lemma InitialShows(clock: Value -> string)
    ensures var s := Initial(clock);
      && s.marketCap == "$55.00B" && s.currentBlock == "14,661,297"
      && s.totalTransactions == "145,890" && s.finality == "1.50s"
      && !BigTransfersHtml(FallbackBigTransfers, clock).failed
      && RecentTransactionsHtml(Arr(FallbackRecentTransactions), true) == Normal(s.recentTransactions)
      && Banner <= s.recentTransactions
  {
    FallbackCapText();
    FallbackBlockText();
    FallbackCountText();
    FinalityShown();
    FallbackBigTransfersRender(FallbackBigTransfers, clock);
    FallbackRecentRender(FallbackRecentTransactions);
    WarningIffFallback(Arr(FallbackRecentTransactions), true);
  }

  /** A TypeError in the big-transfer list ends the cycle before the
      recent transactions are requested: whatever that endpoint would have
      returned, the recent list keeps its HTML. */
  lemma BigFailureSkipsRecent(s: Screen, market: Response, block: Response, stats: Response, big: Response,
                              recent: Response, other: Response, clock: Value -> string)
    requires BigTransfersHtml(SelectBigTransfers(big).0, clock).failed
    ensures Refreshed(s, market, block, stats, big, recent, clock).recentTransactions == s.recentTransactions
    ensures Refreshed(s, market, block, stats, big, recent, clock) == Refreshed(s, market, block, stats, big, other, clock)
  {
  }

  /** A null record among the first ten live transactions makes the
      display throw: after the cycle the recent list is exactly what it
      was, neither the raw items nor the fallback. */
  lemma NullRecordKeepsRecent(s: Screen, market: Response, block: Response, stats: Response, big: Response,
                              ok: bool, fields: map<string, Value>, txs: seq<Value>, k: nat, clock: Value -> string)
    requires "items" in fields && fields["items"] == Arr(txs)
    requires k < |txs| && k < 10 && IsNullish(txs[k])
    ensures Refreshed(s, market, block, stats, big, Reply(ok, Some(Obj(fields))), clock).recentTransactions
      == s.recentTransactions
  {
    NullRecordNotDisplayed(ok, fields, txs, clock, k);
  }

  /** The big-transfer list never throws when it falls back, so the recent
      list is then refreshed whenever its own display does not throw. */
  lemma FallbackReachesRecent(s: Screen, market: Response, block: Response, stats: Response, big: Response,
                              recent: Response, clock: Value -> string)
    requires SelectBigTransfers(big).1
    ensures var chosen := SelectRecentTransactions(recent, clock);
      var recentList := RecentTransactionsHtml(chosen.0, chosen.1);
      recentList.Normal? ==> Refreshed(s, market, block, stats, big, recent, clock).recentTransactions == recentList.value
  {
    FallbackBigTransfersRender(SelectBigTransfers(big).0, clock);
  }

  /** Refreshing twice from the same answers shows what refreshing once
      shows: the page depends on the last answers only. */
  lemma RefreshedTwice(s: Screen, market: Response, block: Response, stats: Response, big: Response,
                       recent: Response, clock: Value -> string)
    ensures var once := Refreshed(s, market, block, stats, big, recent, clock);
      Refreshed(once, market, block, stats, big, recent, clock) == once
  {
  }

  /** A cycle in which no endpoint answers leaves the first screen as it
      is: the cards that need an answer keep their fallback text, the
      transaction card falls back to the same count, and both lists fall
      back to the same records. */
  lemma OfflineCycleKeepsInitial(clock: Value -> string)
    ensures Refreshed(Initial(clock), Unreachable, Unreachable, Unreachable, Unreachable, Unreachable, clock) == Initial(clock)
  {
    UnreachableFallsBack(clock);
    assert SelectBigTransfers(Unreachable) == (FallbackBigTransfers, true);
    FallbackBigTransfersRender(FallbackBigTransfers, clock);
    FallbackRecentRender(FallbackRecentTransactions);
  }

  class Dashboard {
    /** `textContent` of `#usdc-market-cap`. */
    var marketCap: string
    /** `textContent` of `#current-block`. */
    var currentBlock: string
    /** `textContent` of `#total-transactions`. */
    var totalTransactions: string
    /** `textContent` of `#tempo-finalidade`. */
    var finality: string
    /** `innerHTML` of `#big-transactions`. */
    var bigTransactions: string
    /** `innerHTML` of `#recent-transactions-list`. */
    var recentTransactions: string

    /** The page as it is shown. */
    function View(): Screen
      reads this
    {
      Screen(marketCap, currentBlock, totalTransactions, finality, bigTransactions, recentTransactions)
    }

    /** `initializeMetrics`: the fallback figures and both fallback lists. */
    constructor (clock: Value -> string)
      ensures View() == Initial(clock)
    {
      marketCap, currentBlock, totalTransactions := "", "", "";
      finality, bigTransactions, recentTransactions := "", "", "";
      new;
      DisplayFallbackFigures();
      DisplayFallbacks(clock);
    }

    /** The first lines of `initializeMetrics`: the three fallback figures. */
    method DisplayFallbackFigures()
      modifies this
      ensures View() == WithFigures(old(View()))
    {
      var capFormatted := ToFixed(Divide(Finite(FallbackUsdcMarketCap), Billion), 2) + "B";
      marketCap := "$" + capFormatted;
      currentBlock := LocaleFormat(Finite(FallbackBlockHeight as real), DefaultMinFraction, DefaultMaxFraction);
      totalTransactions := LocaleFormat(Finite(FallbackTotalTransactions as real), DefaultMinFraction, DefaultMaxFraction);
    }

    /** The rest of `initializeMetrics`: the finality time and the two
        fallback lists. */
    method DisplayFallbacks(clock: Value -> string)
      modifies this
      ensures View() == WithFallbacks(old(View()), clock)
    {
      DisplayFinalityTime(Finite(FinalityTime));
      var thrown := DisplayBigTransfers(FallbackBigTransfers, true, clock);
      // The fallback rows all render, so `initializeMetrics` goes on.
      FallbackBigTransfersRender(FallbackBigTransfers, clock);
      assert !thrown;
      thrown := DisplayRecentTransactions(Arr(FallbackRecentTransactions), true);
    }

    /** `displayFinalityTime`: the time with two decimals and `s`. */
    method DisplayFinalityTime(timeSeconds: Number)
      modifies this
      ensures View() == old(View()).(finality := SecondsText(timeSeconds))
    {
      finality := ToFixed(timeSeconds, 2) + "s";
    }

    /** `displayBigTransfers`: `<ul>`, then `+=` of one row per record of
        the first five, then `</ul>`. A row that throws leaves the list as
        far as it got and the TypeError escapes. */
    method DisplayBigTransfers(bigTransfers: seq<Value>, isFallback: bool, clock: Value -> string) returns (thrown: bool)
      modifies this
      ensures View() == old(View()).(bigTransactions := BigTransfersHtml(bigTransfers, clock).html)
      ensures thrown == BigTransfersHtml(bigTransfers, clock).failed
    {
      ghost var list := BigTransfersHtml(bigTransfers, clock);
      bigTransactions := "<ul>";
      bigTransactions, thrown := AppendRows(bigTransactions, Shown(bigTransfers, 5), BigRow(clock));
      if !thrown {
        bigTransactions := bigTransactions + "</ul>";
      }
      assert bigTransactions == list.html && thrown == list.failed;
    }

    /** `displayRecentTransactions`: the HTML is built in a local variable
        (the warning when `isFallback`, the list's opening tag, one row per
        record of the first ten and the closing tag) and written at the
        end, so a TypeError leaves the list as it was. `slice` and
        `forEach` are only found on an array. */
    method DisplayRecentTransactions(transactions: Value, isFallback: bool) returns (thrown: bool)
      modifies this
      ensures thrown == RecentTransactionsHtml(transactions, isFallback).TypeError?
      ensures View() == if thrown then old(View())
        else old(View()).(recentTransactions := RecentTransactionsHtml(transactions, isFallback).value)
    {
      var htmlContent := "";
      if isFallback {
        htmlContent := htmlContent + Banner;
        assert htmlContent == Banner;
      }
      htmlContent := htmlContent + ListOpen;
      assert htmlContent == (if isFallback then Banner else "") + ListOpen;
      if !transactions.Arr? {
        return true;
      }
      htmlContent, thrown := AppendRows(htmlContent, Shown(transactions.elems, 10), RecentItem);
      if thrown {
        return;
      }
      htmlContent := htmlContent + "</ul>";
      recentTransactions := htmlContent;
    }

    /** `fetchUSDCMarketCap`: every way of not reaching a cap (no
        response, an error status, no JSON, a missing `usd-coin` or cap)
        ends in the `catch` and keeps the card's text. */
    method FetchUSDCMarketCap(response: Response)
      modifies this
      ensures View() == old(View()).(marketCap := Shows(MarketCapText(response), old(marketCap)))
    {
      if !response.Reply? || !response.ok || response.json.None? {
        return;
      }
      var data := response.json.value;
      if IsNullish(data) {
        return;
      }
      var coin := Get(data, "usd-coin").value;
      if IsNullish(coin) {
        return;
      }
      var cap := Get(coin, "usd_market_cap").value;
      var n := ToNumber(cap);
      var capFormatted: string;
      if n.Finite? && n.r >= Trillion {
        capFormatted := ToFixed(Divide(n, Trillion), 2) + "T";
      } else if n.Finite? && n.r >= Billion {
        capFormatted := ToFixed(Divide(n, Billion), 2) + "B";
      } else if IsNullish(cap) {
        return;
      } else {
        capFormatted := ToLocaleText(cap, DefaultMinFraction, DefaultMaxFraction);
      }
      marketCap := "$" + capFormatted;
    }

    /** `fetchCurrentBlockHeight`: the block number read in base 16, in
        the en-US format; only a missing or null body keeps the card. */
    method FetchCurrentBlockHeight(response: Response)
      modifies this
      ensures View() == old(View()).(currentBlock := Shows(BlockHeightText(response), old(currentBlock)))
    {
      var data := Body(response);
      if data.None? || IsNullish(data.value) {
        return;
      }
      var blockNumber := ParseInt(Get(data.value, "result").value, 16);
      currentBlock := LocaleFormat(blockNumber, DefaultMinFraction, DefaultMaxFraction);
    }

    /** `fetchTotalTransactions`: `finalValue` starts at 0, takes the
        body's count when the body can be read, and falls back to the
        static count when it is still 0 or not a number; the card is
        always rewritten. */
    method FetchTotalTransactions(response: Response)
      modifies this
      ensures View() == old(View()).(totalTransactions :=
        LocaleFormat(TotalTransactions(response), DefaultMinFraction, DefaultMaxFraction))
    {
      var finalValue := Num(Finite(0.0));
      var data := Body(response);
      if data.Some? && !IsNullish(data.value) {
        finalValue := CountChoice(data.value);
      }
      if StrictEquals(finalValue, Num(Finite(0.0))) || !finalValue.Num? {
        finalValue := Num(Finite(FallbackTotalTransactions as real));
      }
      totalTransactions := LocaleFormat(finalValue.n, DefaultMinFraction, DefaultMaxFraction);
    }

    /** `fetchBigTransfers`: the filtered live records, or the fallback
        list when there are none; displaying the fallback never throws. */
    method FetchBigTransfers(response: Response, clock: Value -> string) returns (thrown: bool)
      modifies this
      ensures View() == old(View()).(bigTransactions := BigTransfersHtml(SelectBigTransfers(response).0, clock).html)
      ensures thrown == BigTransfersHtml(SelectBigTransfers(response).0, clock).failed
      ensures SelectBigTransfers(response).1 ==> !thrown
    {
      var bigTransfers: seq<Value> := [];
      var isFallback := false;
      var live := LiveBigTransfers(response);
      if live.Some? {
        bigTransfers := live.value;
      }
      if |bigTransfers| < 1 {
        bigTransfers := FallbackBigTransfers;
        isFallback := true;
        FallbackBigTransfersRender(bigTransfers, clock);
      }
      thrown := DisplayBigTransfers(bigTransfers, isFallback, clock);
    }

    /** `fetchRecentTransactions`: `data.items || []`, reshaped by `map`
        when that does not throw, or the fallback list when it has no
        elements; displaying the fallback never throws. */
    method FetchRecentTransactions(response: Response, clock: Value -> string) returns (thrown: bool)
      modifies this
      ensures var s := SelectRecentTransactions(response, clock);
        && thrown == RecentTransactionsHtml(s.0, s.1).TypeError?
        && View() == if thrown then old(View())
             else old(View()).(recentTransactions := RecentTransactionsHtml(s.0, s.1).value)
      ensures SelectRecentTransactions(response, clock).1 ==> !thrown
    {
      var transactions := Arr([]);
      var isFallback := false;
      var data := Body(response);
      if data.Some? && !IsNullish(data.value) {
        transactions := Or(Get(data.value, "items").value, Arr([]));
        if transactions.Arr? {
          var mapped := MapTransactions(transactions.elems, clock);
          if mapped.Normal? {
            transactions := Arr(mapped.value);
          }
        }
      }
      if LengthBelowOne(transactions) {
        transactions := Arr(FallbackRecentTransactions);
        isFallback := true;
        FallbackRecentRender(FallbackRecentTransactions);
      }
      thrown := DisplayRecentTransactions(transactions, isFallback);
    }

    /** `loadMetrics`: the five fetches in order. A fetch function catches
        its own request errors, but a TypeError thrown while displaying the
        big transfers escapes it and ends the cycle in `loadMetrics`'s
        `catch`, before the recent transactions are fetched. */
    method LoadMetrics(market: Response, block: Response, stats: Response, big: Response, recent: Response,
                       clock: Value -> string)
      modifies this
      ensures View() == Refreshed(old(View()), market, block, stats, big, recent, clock)
    {
      FetchUSDCMarketCap(market);
      FetchCurrentBlockHeight(block);
      FetchTotalTransactions(stats);
      var thrown := FetchBigTransfers(big, clock);
      if thrown {
        return;
      }
      thrown := FetchRecentTransactions(recent, clock);
    }
  }
}

=== FILE: search.dfy ===
/** The search box: an empty query raises an alert, anything else opens
    the explorer's address page for the trimmed query in a new tab. */
module Search {
  import opened Js
  import opened Settings

  /** What pressing search does: show an alert, or open a URL in a window
      target. */
  datatype SearchOutcome = Alert(message: string) | Open(url: string, target: string)

  const EmptyQueryMessage: string := "Please enter a wallet, contract, or domain name."
  /** Every query is sent to the address page, whatever it looks like. */
  const SearchPrefix: string := ArcscanSearchBaseUrl + "/address/"

  /** `performSearch` on the text of the input field. */
  function PerformSearch(input: string): (o: SearchOutcome)
    ensures o.Alert? <==> AllWhiteSpace(input)
    ensures o.Alert? ==> o.message == EmptyQueryMessage
    ensures o.Open? ==> o.target == "_blank" && SearchPrefix <= o.url && |o.url| > |SearchPrefix|
  {
    var query := Trim(input);
    if query == "" then Alert(EmptyQueryMessage)
    else Open(SearchPrefix + query, "_blank")
  }

  /** The opened URL ends in the query exactly as typed, without the white
      space around it and without any escaping: the characters after the
      prefix are the infix of the input that starts at its first
      non-white-space character, and nothing but white space surrounds it. */
  lemma SearchUrl(input: string)
    requires !AllWhiteSpace(input)
    ensures var url, k := PerformSearch(input).url, LeadingWhiteSpace(input);
      var q := url[|SearchPrefix|..];
      && !IsWhiteSpace(q[0]) && !IsWhiteSpace(q[|q| - 1])
      && k + |q| <= |input|
      && (forall i :: 0 <= i < |q| ==> q[i] == input[k + i])
      && WhiteSpaceBetween(input, 0, k) && WhiteSpaceBetween(input, k + |q|, |input|)
  {
    var url := PerformSearch(input).url;
    assert url[|SearchPrefix|..] == Trim(input);
    TrimIsInfix(input, LeadingWhiteSpace(input));
  }

  /** A query typed without surrounding white space is used as it is. */
  lemma SearchAddress(input: string)
    requires input != [] && !IsWhiteSpace(input[0]) && !IsWhiteSpace(input[|input| - 1])
    ensures PerformSearch(input) == Open("https://testnet.arcscan.app/address/" + input, "_blank")
  {
    TrimKeeps(input);
  }
}

=== FILE: settings.dfy ===
/** The dashboard's settings and static fallback data, and how the model
    receives what a request to one of its endpoints returned. */
module Settings {
  import opened Js

  datatype Option<T> = None | Some(value: T)

  /** What `fetch(url)` gave: no response at all (the promise rejected), or
      a response with its `ok` flag and the result of `response.json()`,
      which is `None` when the body is not JSON (that promise rejects). */
  datatype Response = Unreachable | Reply(ok: bool, json: Option<Value>)

  /** The parsed body of a response, when `fetch` and `response.json()`
      both succeed; the `ok` flag is not looked at. */
  function Body(response: Response): (data: Option<Value>)
    ensures data.Some? <==> response.Reply? && response.json.Some?
  {
    if response.Reply? then response.json else None
  }

  const ArcscanSearchBaseUrl: string := "https://testnet.arcscan.app"
  const ArcscanTxBaseUrl: string := "https://testnet.arcscan.app/tx/"

  /** Transfers worth at least this many dollars are institutional. */
  const InstitutionalLimit: real := 1000.0
  const UsdcTokenName: string := "USDC"
  const UsdcDecimals: nat := 6
  /** The finality time shown, in seconds. */
  const FinalityTime: real := 1.5

  const FallbackUsdcMarketCap: real := 55000000000.0
  const FallbackBlockHeight: nat := 14661297
  const FallbackTotalTransactions: nat := 145890

  /** The three big transfers shown when no live one is available. */
  const FallbackBigTransfers: seq<Value> := [
    Obj(map["value" := Num(Finite(500000.0)), "address" := Str("0x1A2B...A9C1"), "time" := Str("5 mins ago")]),
    Obj(map["value" := Num(Finite(12500.0)), "address" := Str("0x3C4D...F8E2"), "time" := Str("15 mins ago")]),
    Obj(map["value" := Num(Finite(2500.0)), "address" := Str("0x5E6F...G7H3"), "time" := Str("30 mins ago")])
  ]

  /** The five transactions shown when no live one is available. */
  const FallbackRecentTransactions: seq<Value> := [
    Obj(map["hash" := Str("0x6d9f8e404f1234567890abcdef1234567890abcdef"), "value" := Num(Finite(500.0)),
            "time" := Str("2 seconds ago"), "status" := Str("SUCCESS")]),
    Obj(map["hash" := Str("0x1a2b3c4d5e6f7a8b9c0d1e2f3a4b5c6d7e8f9012"), "value" := Num(Finite(12000.0)),
            "time" := Str("25 seconds ago"), "status" := Str("SUCCESS")]),
    Obj(map["hash" := Str("0x3e4f5a6b7c8d9e0f1a2b3c4d5e6f7a8b9c0d1e2f"), "value" := Num(Finite(15.5)),
            "time" := Str("45 seconds ago"), "status" := Str("PENDING")]),
    Obj(map["hash" := Str("0x8g9h0i1j2k3l4m5n6o7p8q9r0s1t2u3v4w5x6y7z"), "value" := Num(Finite(980000.0)),
            "time" := Str("1 minute ago"), "status" := Str("SUCCESS")]),
    Obj(map["hash" := Str("0x9h0i1j2k3l4m5n6o7p8q9r0s1t2u3v4w5x6y7z8a"), "value" := Num(Finite(100.0)),
            "time" := Str("1 minute ago"), "status" := Str("FAILURE")])
  ]
}

=== FILE: stream.dfy ===
/** The recent-transaction stream: how live transactions are reshaped,
    which list is shown, and the HTML of each row and of the list. */
module Stream {
  import opened Js
  import opened Format
  import opened Settings
  import opened Markup

  /** The status a reshaped transaction carries. */
  function MappedStatus(status: Value): (s: Value)
    ensures s == Str("SUCCESS") <==> StrictEquals(status, Str("ok"))
    ensures s == Str("SUCCESS") || s == Str("FAILURE")
  {
    if StrictEquals(status, Str("ok")) then Str("SUCCESS") else Str("FAILURE")
  }

  /** The callback of `transactions.map`: `hash` is copied, `value` is
      `Number(tx.value) || 0`, `time` is the time of day of `timestamp`
      (the `clock` parameter) and `status` is "SUCCESS" for "ok" and
      "FAILURE" otherwise. Reading a property of undefined or null throws. */
  function MapTransaction(tx: Value, clock: Value -> string): (r: Completion<Value>)
    ensures r.TypeError? <==> IsNullish(tx)
    ensures r.Normal? ==> r.value.Obj? && r.value.props.Keys == {"hash", "value", "time", "status"}
    ensures r.Normal? ==> r.value.props["hash"] == Get(tx, "hash").value
    ensures r.Normal? ==> r.value.props["status"] == MappedStatus(Get(tx, "status").value)
    ensures r.Normal? ==> var v := r.value.props["value"];
      v.Num? && v.n.Finite? && (v.n.r != 0.0 ==> v.n == ToNumber(Get(tx, "value").value))
    ensures r.Normal? ==> var n := ToNumber(Get(tx, "value").value);
      r.value.props["value"] == (if n.Finite? && n.r != 0.0 then Num(n) else Num(Finite(0.0)))
    ensures r.Normal? ==> r.value.props["time"] == Str(clock(Get(tx, "timestamp").value))
  {
    if IsNullish(tx) then TypeError
    else
      Normal(Obj(map[
        "hash" := Get(tx, "hash").value,
        "value" := Or(Num(ToNumber(Get(tx, "value").value)), Num(Finite(0.0))),
        "time" := Str(clock(Get(tx, "timestamp").value)),
        "status" := MappedStatus(Get(tx, "status").value)]))
  }

  /** `transactions.map(...)`: one reshaped record per record, in order;
      the first undefined or null record makes the whole map throw. */
  function MapTransactions(txs: seq<Value>, clock: Value -> string): (r: Completion<seq<Value>>)
    ensures r.TypeError? <==> exists i :: 0 <= i < |txs| && IsNullish(txs[i])
    ensures r.Normal? ==> |r.value| == |txs| && forall i :: 0 <= i < |txs| ==> r.value[i] == MapTransaction(txs[i], clock).value
    decreases |txs|
  {
    if txs == [] then Normal([])
    else if IsNullish(txs[0]) then TypeError
    else
      match MapTransactions(txs[1..], clock)
      case TypeError => TypeError
      case Normal(rest) =>
        Normal([MapTransaction(txs[0], clock).value] + rest)
  }

  /** What `transactions` holds when the `try` block of
      `fetchRecentTransactions` is left: `[]` when there is no JSON body or
      it is null; otherwise `data.items || []`, replaced by its reshaped
      records when the map succeeds. When `map` throws (a record is
      undefined or null, or `items` is no array) `transactions` keeps the
      raw `items`. */
  function LiveRecentTransactions(response: Response, clock: Value -> string): (v: Value)
    ensures !IsNullish(v)
    ensures Body(response).None? || IsNullish(Body(response).value) ==> v == Arr([])
    ensures Body(response).Some? && !IsNullish(Body(response).value) ==>
      var items := Or(Get(Body(response).value, "items").value, Arr([]));
      && (!items.Arr? ==> v == items)
      && (items.Arr? && MapTransactions(items.elems, clock).TypeError? ==> v == items)
      && (items.Arr? && MapTransactions(items.elems, clock).Normal? ==> v == Arr(MapTransactions(items.elems, clock).value))
  {
    match Body(response)
    case None => Arr([])
    case Some(data) =>
      if IsNullish(data) then Arr([])
      else
        var items := Or(Get(data, "items").value, Arr([]));
        if !items.Arr? then items
        else
          match MapTransactions(items.elems, clock)
          case TypeError => items
          case Normal(rows) => Arr(rows)
  }

  /** `transactions.length < 1`: a missing `length` reads as undefined,
      which is not below 1. */
  predicate LengthBelowOne(v: Value): (below: bool)
    requires !IsNullish(v)
    ensures v.Arr? ==> (below <==> v.elems == [])
    ensures v.Str? ==> (below <==> v.s == "")
    ensures Get(v, "length").value == Undefined ==> !below
  {
    var n := ToNumber(Get(v, "length").value);
    n.Finite? && n.r < 1.0
  }

  /** The list handed to `displayRecentTransactions` and its `isFallback`
      flag. */
  function SelectRecentTransactions(response: Response, clock: Value -> string): (s: (Value, bool))
    ensures s.1 <==> LengthBelowOne(LiveRecentTransactions(response, clock))
    ensures s.1 ==> s.0 == Arr(FallbackRecentTransactions)
    ensures !s.1 ==> s.0 == LiveRecentTransactions(response, clock)
  {
    var live := LiveRecentTransactions(response, clock);
    if LengthBelowOne(live) then (Arr(FallbackRecentTransactions), true) else (live, false)
  }

  /** Live records, none of them undefined or null, are shown reshaped and
      in their order, with the warning off. */
  lemma LiveRecordsShown(ok: bool, fields: map<string, Value>, txs: seq<Value>, clock: Value -> string)
    requires "items" in fields && fields["items"] == Arr(txs) && |txs| >= 1
    requires forall i :: 0 <= i < |txs| ==> !IsNullish(txs[i])
    ensures var s := SelectRecentTransactions(Reply(ok, Some(Obj(fields))), clock);
      && !s.1 && s.0.Arr? && |s.0.elems| == |txs|
      && forall i :: 0 <= i < |txs| ==> s.0.elems[i] == MapTransaction(txs[i], clock).value
  {
    var rows := MapTransactions(txs, clock).value;
    assert LiveRecentTransactions(Reply(ok, Some(Obj(fields))), clock) == Arr(rows);
  }

  /** When one record is null, `map` throws after `transactions` already
      holds the raw items: they are handed to the display as they are, with
      no fallback and no warning (`NullRecordNotDisplayed` shows what the
      display then does). */
  lemma RawItemsShownWhenMapThrows(ok: bool, fields: map<string, Value>, txs: seq<Value>, clock: Value -> string, k: nat)
    requires "items" in fields && fields["items"] == Arr(txs)
    requires k < |txs| && IsNullish(txs[k])
    ensures SelectRecentTransactions(Reply(ok, Some(Obj(fields))), clock) == (Arr(txs), false)
  {
    assert LiveRecentTransactions(Reply(ok, Some(Obj(fields))), clock) == Arr(txs);
  }

  /** A null record among the first ten makes the display of the raw items
      throw on `tx.hash`, so nothing is written: the list keeps its old
      HTML, and no fallback and no warning appear either. */
  lemma NullRecordNotDisplayed(ok: bool, fields: map<string, Value>, txs: seq<Value>, clock: Value -> string, k: nat)
    requires "items" in fields && fields["items"] == Arr(txs)
    requires k < |txs| && k < 10 && IsNullish(txs[k])
    ensures var s := SelectRecentTransactions(Reply(ok, Some(Obj(fields))), clock);
      RecentTransactionsHtml(s.0, s.1).TypeError?
  {
    RawItemsShownWhenMapThrows(ok, fields, txs, clock, k);
    assert RecentItem(txs[k]).TypeError?;
  }

  /** A reply whose JSON does not parse, or whose body is null, never
      reaches `data.items`: `transactions` stays `[]` and the fallback is
      shown, with the warning. */
  lemma NoBodyFallsBack(response: Response, clock: Value -> string)
    requires Body(response).None? || IsNullish(Body(response).value)
    ensures SelectRecentTransactions(response, clock) == (Arr(FallbackRecentTransactions), true)
  {
    assert LiveRecentTransactions(response, clock) == Arr([]);
  }

  /** An empty or missing `items` list shows the fallback, with the
      warning. */
  lemma NoItemsFallsBack(ok: bool, fields: map<string, Value>, clock: Value -> string)
    requires "items" !in fields || fields["items"] == Arr([]) || !Truthy(fields["items"])
    ensures SelectRecentTransactions(Reply(ok, Some(Obj(fields))), clock) == (Arr(FallbackRecentTransactions), true)
  {
    var items := Or(Get(Obj(fields), "items").value, Arr([]));
    assert items == Arr([]);
    assert MapTransactions([], clock) == Normal([]);
  }

  /** A response that never arrives shows the fallback, with the warning. */
  lemma UnreachableFallsBack(clock: Value -> string)
    ensures SelectRecentTransactions(Unreachable, clock) == (Arr(FallbackRecentTransactions), true)
  {
  }

  /** The CSS class of a row: `success` for "SUCCESS" or the number 1,
      `pending` for "PENDING", `failure` for anything else. */
  function StatusClass(status: Value): (c: string)
    ensures c == "success" <==> StrictEquals(status, Str("SUCCESS")) || StrictEquals(status, Num(Finite(1.0)))
    ensures c == "pending" <==>
      (!(StrictEquals(status, Str("SUCCESS")) || StrictEquals(status, Num(Finite(1.0))))
       && StrictEquals(status, Str("PENDING")))
    ensures c == "success" || c == "pending" || c == "failure"
  {
    if StrictEquals(status, Str("SUCCESS")) || StrictEquals(status, Num(Finite(1.0))) then "success"
    else if StrictEquals(status, Str("PENDING")) then "pending"
    else "failure"
  }

  const CheckIcon: string := "<i class=\"fas fa-check-circle\"></i>"
  const ClockIcon: string := "<i class=\"fas fa-clock\"></i>"
  const CrossIcon: string := "<i class=\"fas fa-times-circle\"></i>"

  /** The icon of a row, chosen from its class alone. */
  function StatusIcon(c: string): (icon: string)
    ensures icon == CheckIcon <==> c == "success"
    ensures icon == ClockIcon <==> c == "pending"
    ensures icon == CheckIcon || icon == ClockIcon || icon == CrossIcon
  {
    if c == "success" then CheckIcon else if c == "pending" then ClockIcon else CrossIcon
  }

  /** Two rows show the same icon exactly when they have the same class. */
  lemma IconIdentifiesClass(s: Value, t: Value)
    ensures StatusIcon(StatusClass(s)) == StatusIcon(StatusClass(t)) <==> StatusClass(s) == StatusClass(t)
  {
  }

  /** A reshaped live record is never shown as pending: its status is
      "SUCCESS" or "FAILURE", and it is a success exactly when the
      explorer said "ok". */
  lemma MappedNeverPending(tx: Value, clock: Value -> string)
    requires !IsNullish(tx)
    ensures var row := MapTransaction(tx, clock).value;
      var c := StatusClass(Get(row, "status").value);
      c != "pending" && (c == "success" <==> StrictEquals(Get(tx, "status").value, Str("ok")))
  {
  }

  /** `${hash.substring(0, 10)}...${hash.slice(-4)}`: the first ten and the
      last four characters around three dots; a short hash appears whole
      on both sides. */
  function ShortHash(h: string): (r: string)
    ensures var front, back := (if |h| < 10 then |h| else 10), (if |h| < 4 then |h| else 4);
      && |r| == front + 3 + back
      && (forall i :: 0 <= i < front ==> r[i] == h[i])
      && r[front..front + 3] == "..."
      && (forall i :: front + 3 <= i < |r| ==> r[i] == h[|h| - |r| + i])
  {
    SubstringPrefix(h, 10);
    SliceSuffix(h, 4);
    Substring(h, 0, 10) + "..." + SliceFrom(h, -4)
  }

  /** The hash a row shows and links to: `tx.hash || "0xARC-TX-HASH"`. */
  function RowHash(tx: Value): (h: Value)
    requires !IsNullish(tx)
    ensures Truthy(Get(tx, "hash").value) ==> h == Get(tx, "hash").value
    ensures !Truthy(Get(tx, "hash").value) ==> h == Str("0xARC-TX-HASH")
  {
    Or(Get(tx, "hash").value, Str("0xARC-TX-HASH"))
  }

  /** One `<li>` of the stream: the opening of the item up to its link,
      the link, and the rest of the item. */
  function RecentItemHtml(c: string, link: string, icon: string, hash: string, value: string, time: string): string {
    RowHead(c) + link + RowTail(icon, hash, value, time)
  }

  /** The text of a row before its link. */
  function RowHead(c: string): string {
    "\n            <li class=\"transaction-item " + c + "\" onclick=\"window.open('"
  }

  /** The text of a row after its link. */
  function RowTail(icon: string, hash: string, value: string, time: string): string {
    "', '_blank')\">\n                <span class=\"tx-status-icon\">" + icon
      + "</span>\n                <span class=\"tx-hash\">" + hash
      + "</span>\n                <span class=\"tx-value\">$" + value
      + "</span>\n                <span class=\"tx-timestamp\">" + time + "</span>\n            </li>\n        "
  }

  /** The explorer page a row opens: the transaction base URL followed by
      the hash. */
  function TxLink(hash: string): (url: string)
    ensures ArcscanTxBaseUrl <= url && url[|ArcscanTxBaseUrl|..] == hash
  {
    ArcscanTxBaseUrl + hash
  }

  /** The row of one record: class and icon from its status, the link to
      the explorer page of its hash, the short hash, the value with
      exactly two decimals and the time (`tx.time || "Just now"`). It
      throws for an undefined or null record and for a hash that is not a
      string. */
  function RecentItem(tx: Value): (r: Completion<string>)
    ensures r.TypeError? <==> IsNullish(tx) || !RowHash(tx).Str?
    ensures r.Normal? ==> RowHead(StatusClass(Get(tx, "status").value)) + TxLink(RowHash(tx).s) <= r.value
  {
    if IsNullish(tx) then TypeError
    else
      var hash := RowHash(tx);
      if !hash.Str? then TypeError
      else
        var c := StatusClass(Get(tx, "status").value);
        var value := ToLocaleText(Or(Get(tx, "value").value, Num(Finite(0.0))), 2, 2);
        var time := ToString(Or(Get(tx, "time").value, Str("Just now")));
        Normal(RecentItemHtml(c, TxLink(hash.s), StatusIcon(c), ShortHash(hash.s), value, time))
  }

  /** A record with no hash links to the explorer's `tx/0xARC-TX-HASH`
      page and shows "0xARC-TX-H...HASH". */
  lemma MissingHash(tx: Value)
    requires !IsNullish(tx) && !Truthy(Get(tx, "hash").value)
    ensures RowHash(tx) == Str("0xARC-TX-HASH")
    ensures ShortHash(RowHash(tx).s) == "0xARC-TX-H...HASH"
  {
    var h := RowHash(tx).s;
    assert Substring(h, 0, 10) == "0xARC-TX-H";
    assert SliceFrom(h, -4) == "HASH";
  }

  /** The warning sign and its emoji presentation selector. */
  const WarningSign: string := ['\U{26A0}', '\U{FE0F}']
  const Banner: string := "<p class=\"fallback-warning\">" + WarningSign + " API Inactive. Showing static presentation data.</p>"
  const ListOpen: string := "<ul class=\"transaction-list\">"

  /** `displayRecentTransactions`: the warning when `isFallback`, then the
      list of the first ten rows. `slice` and `forEach` exist only on
      arrays (a string has `slice` but no `forEach`), so any other value
      throws, as does a row that throws; then nothing is written. */
  function RecentTransactionsHtml(transactions: Value, isFallback: bool): (r: Completion<string>)
    ensures r.TypeError? <==>
      (|| !transactions.Arr?
       || exists i :: 0 <= i < |transactions.elems| && i < 10 && RecentItem(transactions.elems[i]).TypeError?)
  {
    if !transactions.Arr? then TypeError
    else
      var items := Concat(Rows(Shown(transactions.elems, 10), RecentItem));
      ShownFails(transactions.elems, RecentItem, 10);
      if items.failed then TypeError
      else Normal((if isFallback then Banner else "") + ListOpen + items.html + "</ul>")
  }

  /** The list starts with the warning exactly when `isFallback` is set. */
  lemma WarningIffFallback(transactions: Value, isFallback: bool)
    requires RecentTransactionsHtml(transactions, isFallback).Normal?
    ensures Banner <= RecentTransactionsHtml(transactions, isFallback).value <==> isFallback
  {
    var items := Concat(Rows(Shown(transactions.elems, 10), RecentItem)).html;
    assert RecentTransactionsHtml(transactions, isFallback).value
      == (if isFallback then Banner else "") + ListOpen + items + "</ul>";
    WarningPrefix(items, isFallback);
  }

  lemma WarningPrefix(items: string, isFallback: bool)
    ensures Banner <= (if isFallback then Banner else "") + ListOpen + items + "</ul>" <==> isFallback
  {
    var html := (if isFallback then Banner else "") + ListOpen + items + "</ul>";
    if !isFallback {
      assert html[1] == ListOpen[1] == 'u' != Banner[1];
    }
  }

  /** Records after the tenth never change the list. */
  lemma FirstTenTransactions(txs: seq<Value>, extra: seq<Value>, isFallback: bool)
    requires |txs| >= 10
    ensures RecentTransactionsHtml(Arr(txs + extra), isFallback) == RecentTransactionsHtml(Arr(txs), isFallback)
  {
    assert Shown(txs + extra, 10) == Shown(txs, 10);
  }

  /** A record whose hash is a non-empty string renders. */
  lemma HashedRowRenders(tx: Value)
    requires !IsNullish(tx) && Get(tx, "hash").value.Str? && Get(tx, "hash").value.s != ""
    ensures RecentItem(tx).Normal?
  {
  }

  /** The fallback transactions all render, under the warning. */
  lemma FallbackRecentRender(txs: seq<Value>)
    requires txs == FallbackRecentTransactions
    ensures RecentTransactionsHtml(Arr(txs), true).Normal?
  {
    assert forall i :: 0 <= i < |txs| ==> RecentItem(txs[i]).Normal? by {
      forall i | 0 <= i < |txs|
        ensures RecentItem(txs[i]).Normal?
      {
        HashedRowRenders(txs[i]);
      }
    }
  }
}

=== FILE: transfers.dfy ===
/** The "big transfers" list: which token transfers count as institutional
    USDC transfers, which list is shown, and the HTML of each row and of
    the list. */
module Transfers {
  import opened Numerals
  import opened Js
  import opened Format
  import opened Settings
  import opened Markup

  /** The filter's test for one record that is not undefined or null: a
      truthy `token` whose `symbol` is "USDC", and `Number(total)` worth
      at least the institutional limit once divided by 10^6. */
  predicate IsBigTransfer(tx: Value): (big: bool)
    requires !IsNullish(tx)
    ensures big ==> Truthy(Get(tx, "token").value) && Get(Get(tx, "token").value, "symbol").value == Str(UsdcTokenName)
    ensures big ==> ToNumber(Get(tx, "total").value).Finite?
  {
    var token := Get(tx, "token").value;
    && Truthy(token)
    && StrictEquals(Get(token, "symbol").value, Str(UsdcTokenName))
    && var amount := Divide(ToNumber(Get(tx, "total").value), Pow10(UsdcDecimals) as real);
       amount.Finite? && amount.r >= InstitutionalLimit
  }

  /** With six decimals, the limit of 1000 dollars is 10^9 base units. */
  lemma BigTransferThreshold(tx: Value)
    requires !IsNullish(tx)
    ensures IsBigTransfer(tx) <==>
      var token := Get(tx, "token").value;
      var total := ToNumber(Get(tx, "total").value);
      && Truthy(token)
      && StrictEquals(Get(token, "symbol").value, Str(UsdcTokenName))
      && total.Finite? && total.r >= 1000000000.0
  {
    assert Pow10(UsdcDecimals) == 1000000;
  }

  /** A USDC record whose `total` is a decimal string is kept exactly when
      the amount is at least 10^9 base units. */
  lemma DecimalTotal(fields: map<string, Value>, n: nat)
    requires "token" in fields && fields["token"] == Obj(map["symbol" := Str(UsdcTokenName)])
    requires "total" in fields && fields["total"] == Str(Digits(n, 10))
    ensures IsBigTransfer(Obj(fields)) <==> n >= 1000000000
  {
    DecimalStringToNumber(n);
    BigTransferThreshold(Obj(fields));
  }

  /** A record without a token is never kept. */
  lemma TokenlessDropped(fields: map<string, Value>)
    requires "token" !in fields
    ensures !IsBigTransfer(Obj(fields))
  {
  }

  /** A `total` sent as an object converts to NaN, so such a record is
      never kept, whatever the object holds. */
  lemma ObjectTotalDropped(fields: map<string, Value>)
    requires "total" in fields && fields["total"].Obj?
    ensures !IsBigTransfer(Obj(fields))
  {
    ObjectToNumber(fields["total"]);
  }

  /** A USDC record of 2000 dollars is kept, one of 500 dollars is
      dropped. */
  lemma BigTransferExamples(kept: map<string, Value>, dropped: map<string, Value>)
    requires kept == map["token" := Obj(map["symbol" := Str("USDC")]), "total" := Str("2000000000")]
    requires dropped == map["token" := Obj(map["symbol" := Str("USDC")]), "total" := Str("500000000")]
    ensures IsBigTransfer(Obj(kept)) && !IsBigTransfer(Obj(dropped))
  {
    KeptDigits();
    DecimalTotal(kept, 2000000000);
    DroppedDigits();
    DecimalTotal(dropped, 500000000);
  }

  lemma KeptDigits()
    ensures Digits(2000000000, 10) == "2000000000"
  {
  }

  lemma DroppedDigits()
    ensures Digits(500000000, 10) == "500000000"
  {
  }

  /** `items.filter(...)`: the records that pass the test, in their order.
      The test reads `tx.token`, which throws on an undefined or null
      record, and then the whole filter throws. */
  function FilterBigTransfers(items: seq<Value>): (r: Completion<seq<Value>>)
    ensures r.TypeError? <==> exists i :: 0 <= i < |items| && IsNullish(items[i])
    ensures r.Normal? ==> forall x :: x in r.value <==> x in items && IsBigTransfer(x)
    decreases |items|
  {
    if items == [] then Normal([])
    else if IsNullish(items[0]) then TypeError
    else
      match FilterBigTransfers(items[1..])
      case TypeError => TypeError
      case Normal(rest) =>
        assert items == [items[0]] + items[1..];
        Normal((if IsBigTransfer(items[0]) then [items[0]] else []) + rest)
  }

  /** A single record that is not undefined or null is kept, once, exactly
      when it passes the test; with `FilterAppend` this fixes the filter on
      every list. */
  lemma FilterOne(x: Value)
    requires !IsNullish(x)
    ensures FilterBigTransfers([x]) == Normal(if IsBigTransfer(x) then [x] else [])
  {
    var head: seq<Value> := if IsBigTransfer(x) then [x] else [];
    assert [x][0] == x && [x][1..] == [];
    assert FilterBigTransfers([]) == Normal([]);
    assert head + [] == head;
  }

  /** Filtering a concatenation filters each part and keeps the order:
      the kept records of `a` come before those of `b`. */
  lemma {:induction false} FilterAppend(a: seq<Value>, b: seq<Value>)
    ensures FilterBigTransfers(a + b) ==
      if FilterBigTransfers(a).Normal? && FilterBigTransfers(b).Normal?
      then Normal(FilterBigTransfers(a).value + FilterBigTransfers(b).value)
      else TypeError
    decreases |a|
  {
    if a == [] {
      assert a + b == b;
      if FilterBigTransfers(b).Normal? {
        assert [] + FilterBigTransfers(b).value == FilterBigTransfers(b).value;
      }
    } else {
      assert (a + b)[0] == a[0];
      assert (a + b)[1..] == a[1..] + b;
      FilterAppend(a[1..], b);
      if !IsNullish(a[0]) && FilterBigTransfers(a[1..]).Normal? && FilterBigTransfers(b).Normal? {
        var head := if IsBigTransfer(a[0]) then [a[0]] else [];
        var x, y := FilterBigTransfers(a[1..]).value, FilterBigTransfers(b).value;
        assert head + (x + y) == (head + x) + y;
      }
    }
  }

  /** The list that `fetchBigTransfers` leaves in `bigTransfers` when its
      `try` block completes; `None` when it ends in the `catch` (no
      response, no JSON, a null body, `items` not an array, or a filter
      that threw). */
  function LiveBigTransfers(response: Response): (r: Option<seq<Value>>)
    ensures r.Some? <==>
      && Body(response).Some?
      && !IsNullish(Body(response).value)
      && Get(Body(response).value, "items").value.Arr?
      && FilterBigTransfers(Get(Body(response).value, "items").value.elems).Normal?
    ensures r.Some? ==> r == Some(FilterBigTransfers(Get(Body(response).value, "items").value.elems).value)
    ensures r.Some? ==> forall x :: x in r.value ==> !IsNullish(x) && IsBigTransfer(x)
  {
    match Body(response)
    case None => None
    case Some(data) =>
      if IsNullish(data) then None
      else
        var items := Get(data, "items").value;
        if !items.Arr? then None
        else
          match FilterBigTransfers(items.elems)
          case TypeError => None
          case Normal(kept) => Some(kept)
  }

  /** The rows handed to `displayBigTransfers` and the `isFallback` flag:
      the live big transfers when there is at least one, otherwise the
      fallback list. */
  function SelectBigTransfers(response: Response): (s: (seq<Value>, bool))
    ensures s.1 <==> LiveBigTransfers(response).None? || LiveBigTransfers(response).value == []
    ensures s.1 ==> s.0 == FallbackBigTransfers
    ensures !s.1 ==> LiveBigTransfers(response).Some? && s.0 == LiveBigTransfers(response).value
    ensures !s.1 ==> |s.0| >= 1 && forall x :: x in s.0 ==> !IsNullish(x) && IsBigTransfer(x)
  {
    var live := LiveBigTransfers(response);
    if live.Some? && |live.value| >= 1 then (live.value, false) else (FallbackBigTransfers, true)
  }

  /** `tx.value || Number(tx.total) / 10 ** 6`. */
  function BigValue(tx: Value): (v: Value)
    requires !IsNullish(tx)
    ensures !IsNullish(v)
    ensures Truthy(Get(tx, "value").value) ==> v == Get(tx, "value").value
    ensures !Truthy(Get(tx, "value").value) ==>
      v == Num(Divide(ToNumber(Get(tx, "total").value), 1000000.0))
  {
    Or(Get(tx, "value").value, Num(Divide(ToNumber(Get(tx, "total").value), Pow10(UsdcDecimals) as real)))
  }

  /** `tx.time || (tx.timestamp ? <its time of day> : 'Just now')`; the
      time of day of a timestamp is the `clock` parameter. */
  function BigTime(tx: Value, clock: Value -> string): (t: Value)
    requires !IsNullish(tx)
    ensures Truthy(Get(tx, "time").value) ==> t == Get(tx, "time").value
    ensures !Truthy(Get(tx, "time").value) && Truthy(Get(tx, "timestamp").value) ==>
      t == Str(clock(Get(tx, "timestamp").value))
    ensures !Truthy(Get(tx, "time").value) && !Truthy(Get(tx, "timestamp").value) ==> t == Str("Just now")
  {
    var stamp := Get(tx, "timestamp").value;
    Or(Get(tx, "time").value, Str(if Truthy(stamp) then clock(stamp) else "Just now"))
  }

  /** `tx.address || tx.from.hash || "0x000...ARC"`: reading `hash` of an
      undefined or null `from` throws, but only when `address` is falsy. */
  function BigAddress(tx: Value): (r: Completion<Value>)
    requires !IsNullish(tx)
    ensures r.TypeError? <==> !Truthy(Get(tx, "address").value) && IsNullish(Get(tx, "from").value)
    ensures Truthy(Get(tx, "address").value) ==> r == Normal(Get(tx, "address").value)
    ensures r.Normal? && !Truthy(Get(tx, "address").value) ==>
      r.value == Or(Get(Get(tx, "from").value, "hash").value, Str("0x000...ARC"))
  {
    var address := Get(tx, "address").value;
    if Truthy(address) then Normal(address)
    else
      var from := Get(tx, "from").value;
      if IsNullish(from) then TypeError else Normal(Or(Get(from, "hash").value, Str("0x000...ARC")))
  }

  /** `${address.substring(0, 8)}...`: at most eight characters of the
      address and three dots. */
  function AddressLabel(address: string): (text: string)
    ensures |text| == (if |address| < 8 then |address| else 8) + 3
    ensures forall i :: 0 <= i < |text| - 3 ==> text[i] == address[i]
    ensures text[|text| - 3..] == "..."
  {
    SubstringPrefix(address, 8);
    Substring(address, 0, 8) + "..."
  }

  /** One `<li>` of the list, for a value, an address and a time already
      turned into text. */
  function BigItemHtml(value: string, address: string, time: string): string {
    "\n            <li>\n                <strong>Value: $" + value
      + "</strong> \n                <span class=\"tx-address\">Address: " + address
      + "</span>\n                <span class=\"tx-time\">" + time + "</span>\n            </li>"
  }

  /** The row of one record: the value in whole dollars in the en-US
      format, the shortened address and the time. Reading a property of
      an undefined or null record throws, and so does `substring` on an
      address that is not a string. */
  function BigItem(tx: Value, clock: Value -> string): (r: Completion<string>)
    ensures r.TypeError? <==> IsNullish(tx) || BigAddress(tx).TypeError? || !BigAddress(tx).value.Str?
  {
    if IsNullish(tx) then TypeError
    else
      match BigAddress(tx)
      case TypeError => TypeError
      case Normal(address) =>
        if !address.Str? then TypeError
        else
          Normal(BigItemHtml(ToLocaleText(BigValue(tx), 0, 0), AddressLabel(address.s), ToString(BigTime(tx, clock))))
  }

  /** The row renderer `displayBigTransfers` applies to each record. */
  function BigRow(clock: Value -> string): Value -> Completion<string> {
    tx => BigItem(tx, clock)
  }

  /** `displayBigTransfers`: the container holds `<ul>`, the rows of the
      first five records and `</ul>`; a row that throws ends the function
      with the container as far as it got. The `isFallback` flag is not
      used: the big-transfer list never shows a warning. */
  function BigTransfersHtml(txs: seq<Value>, clock: Value -> string): (p: Partial)
    ensures p.failed <==> exists i :: 0 <= i < |txs| && i < 5 && BigItem(txs[i], clock).TypeError?
  {
    var items := Concat(Rows(Shown(txs, 5), BigRow(clock)));
    ShownFails(txs, BigRow(clock), 5);
    Partial("<ul>" + items.html + (if items.failed then "" else "</ul>"), items.failed)
  }

  /** Records after the fifth never change the list. */
  lemma FirstFiveBigTransfers(txs: seq<Value>, extra: seq<Value>, clock: Value -> string)
    requires |txs| >= 5
    ensures BigTransfersHtml(txs + extra, clock) == BigTransfersHtml(txs, clock)
  {
    assert Shown(txs + extra, 5) == Shown(txs, 5);
  }

  /** A record whose `address` is a non-empty string renders. */
  lemma AddressedRowRenders(tx: Value, clock: Value -> string)
    requires !IsNullish(tx) && Get(tx, "address").value.Str? && Get(tx, "address").value.s != ""
    ensures BigItem(tx, clock).Normal?
  {
  }

  /** The fallback rows all render: their addresses are strings. */
  lemma FallbackBigTransfersRender(txs: seq<Value>, clock: Value -> string)
    requires txs == FallbackBigTransfers
    ensures !BigTransfersHtml(txs, clock).failed
  {
    assert forall i :: 0 <= i < |txs| ==> BigItem(txs[i], clock).Normal? by {
      forall i | 0 <= i < |txs|
        ensures BigItem(txs[i], clock).Normal?
      {
        AddressedRowRenders(txs[i], clock);
      }
    }
  }

  /** The fallback addresses are already shortened, so the list shows
      them with eight characters and five dots. */
  lemma FallbackAddressLabel()
    ensures AddressLabel("0x1A2B...A9C1") == "0x1A2B....."
  {
    assert Substring("0x1A2B...A9C1", 0, 8) == "0x1A2B..";
  }

  /** A whole-dollar value is shown grouped by thousands, with no
      fraction. */
  lemma WholeDollars(k: int)
    ensures ToLocaleText(Num(Finite(k as real)), 0, 0) == Grouped(k)
  {
    LocaleOfInteger(k, 0);
  }
}
